=== FILE: README.md ===
# Drive loader core in Dafny

A model of the two pieces of logic in the Google Drive bulk loader
(`main.py`) and proofs about them:

1. **Listing and path resolution** (`list_files`). The listing responses are
   concatenated page after page until the first response without a
   `nextPageToken`. Folders are dropped. Every remaining item gets a `path`
   from the nested `recurse_to_the_root`. That function looks the item up by
   id (first match in list order), follows only `parents[0]`, and joins the
   ancestor names with `/` from root to leaf.
2. **Download dispatch** (`download_file_kernel`, `download_files`). A folder
   that reaches the kernel ends the run with an exception. The exception is
   sure to be `"Folder found among files."` when the folder's own listing
   comes back empty. Otherwise its children are downloaded first, and the
   first failing descendant decides the exception.
   Google documents, spreadsheets and presentations are exported to `.docx`,
   `.xlsx` and `.pptx` with the matching Office Open XML MIME type. Anything
   else is fetched raw under its own name. The file is written into
   `Path(path).parent` after that directory is created. The run fails when a
   name is wanted both as a file and as a directory. Names are compared
   exactly, as on a case-sensitive file system.

## Layout

| file | module | contents |
|---|---|---|
| `results.dfy` | `Results` | `Option`, `Result` (a raised exception is a `Failure`) |
| `drive.dfy` | `Drive` | `Item` (`id`, `name`, `mimeType`, optional `parents`), the Google MIME constants |
| `paths.dfy` | `Paths` | paths as name segments; `JoinPath` (the f-string join) and `SplitPath` (how `pathlib` reads it back) |
| `catalog.dfy` | `Catalog` | the id set, `FindFirst` and `Lookup` (the `next(...)` scan) |
| `resolver.dfy` | `Resolver` | `RecurseToRoot` (the source recursion as written) and `Resolve` (the terminating resolver), with the theorems relating them |
| `listing.dfy` | `Listing` | pages, the accumulation loop, the folder filter, `list_files` |
| `export.dfy` | `Export` | the dispatch table, the kernel, the download loop, the resulting mirror |
| `localtree.dfy` | `LocalTree` | the directories and files the writes create, and when a write fails |
| `pipeline.dfy` | `Pipeline` | `main`'s list-then-download sequence; where a resolved file lands |
| `scenarios.dfy` | `Scenarios` | concrete catalogs taken from the tests and the design notes |

Modelling decisions:

- **Parents.** `parents` is `Option<seq<string>>`. `None` means the key is
  absent. `Some([])` makes `parents[0]` raise, which the model reports as
  `NoParentListed`. A lookup that finds nothing makes `"parents" in None`
  raise, which the model reports as `MissingItem`.
- **Recursion and cycles.** The source recursion has no cycle guard. Python
  ends a runaway recursion with `RecursionError`. `RecurseToRoot` models this
  with `fuel`, the number of further `recurse_to_the_root` calls the stack
  still allows. Each call has its own Python frame, and while its
  `next(...)` lookup scans, the generator expression runs in one more frame
  on top, so the deepest lookup needs one frame beyond the calls. Running
  out is `RecursionLimit`. `Resolve` instead carries the set of ids visited on the
  current chain and fails with `ParentCycle` when the chain revisits one. The
  main theorems:
  - `AgreesAtChainDepth`: for an id that resolves, the source returns the
    same path joined by `/` exactly when the stack allows a call per name of
    the path, and runs out of stack otherwise.
  - `SourceAgreesAtDepth`: whenever `Resolve` reports no cycle, the source
    returns the same path or the same error as soon as the stack allows one
    call more than the steps `Resolve` takes up the chain (`Depth`), and runs
    out of stack otherwise. This holds for errors as much as for paths, so a
    missing parent far up a long chain is reported alike by both, however
    large the catalog. `TerminatingSourceAgrees` is the special case of room
    for more calls than catalog ids.
  - `CycleMeansSourceDiverges`: whenever `Resolve` reports a cycle, the source
    fails with `RecursionLimit` at every depth.
  - `WellFormedResolves`: on a catalog without dangling parents and without
    cycles, every id resolves, and the source returns that path whenever the
    stack allows as many calls as the path has names.
- **Paths.** A resolved path is a sequence of names, root first. The string
  stored in `file["path"]` is `JoinPath` of it. `Path(path).parent` is every
  part of `SplitPath(path)` but the last; the empty sequence stands for `.`.
  `SplitPath` splits on `/` only. It does not apply `pathlib`'s folding of
  `//`, `.` parts or a trailing `/`, so it matches `pathlib` only for names
  that are non-empty, are not `.` and contain no `/`. `pathlib` keeps a `..`
  part, and so does `SplitPath`, but the file system reads it as the parent
  directory, which `LocalTree` does not. Item names are assumed to be
  non-empty, not `.` or `..`, and free of `/`. `DestinationOfResolvedPath` states the resulting
  directory and destination for slash-free names.
- **Listing service.** The service is given as the finite sequence of
  responses it returns, in call order. Each request passes the previous
  response's `nextPageToken`, with `pageSize` 1000. If no response lacks a
  token, the model stops with `NoFinalPage`; the source would keep calling.
- **Downloads.** A download is described by its request (`ExportMedia` with a
  target type, or `GetMedia`), its file name, the directory it creates and the
  destination it writes. The bytes are not modelled. `LocalTree.WriteAll`
  replays the `os.makedirs` and `io.open(..., "wb")` calls in order on a tree
  of directories and files. The tree starts out empty. A write fails when a
  file sits where a directory is needed, or a directory where the file goes.
  When no write fails, the files are exactly `Mirror`: each destination holds
  the content of the last file written there.
- **Where tests and code disagree, the model follows the code.**
  `test_list_files_handles_max_files` expects an exception that only the
  commented-out `list_files` raised. The `makedirs("/path/to")` assertions
  contradict `Path(file["path"]).parent`, which gives `/path` for that path.
  The fixture's item names a parent `"0"` that is not listed, so the code
  fails on it (`Scenarios.DanglingParentFails`). In `test_handle_folder` the
  mocked listing returns a non-folder child for the folder, so the code
  downloads that child first, and the child fails before the folder message
  is raised. `Scenarios.FolderRejected` states the message for a folder with
  no listed children.

## Model

| member | source | states |
|---|---|---|
| Catalog.FindFirst | main.py:56 | The position found holds the id and no earlier item has it. `None` means no item has the id. |
| Catalog.Lookup | main.py:56 | An item is found exactly when the id occurs in the catalog, and the item found carries that id. |
| Catalog.LookupIsFirstMatch | main.py:56 | The item found is the first one in list order with the id. |
| Paths.SplitPath | main.py:175 | Reading a path string gives at least one part, and no part contains `/`. |
| Drive.IsFolder | main.py:66 | The folder test: the item's MIME type is the Google folder type. `Listing.NonFoldersMultiplicity` and `Export.DownloadKernel` state what it decides. |
| Paths.JoinPath | main.py:59 | The `f"{parent}/{name}"` string built for a chain of names. `Paths.JoinSnoc` states the step and `Paths.SplitJoin` that the names can be read back. |
| Paths.ParentDir | main.py:175 | `Path(p).parent` read as parts: one part fewer than `p`. `Paths.ParentOfJoined` states which parts for the paths the loader builds. |
| Paths.ParentOfJoined | main.py:175 | `Path(p).parent` of a path joined from slash-free names is the path of all names but the last. For a single name it is the current directory. |
| Paths.JoinSnoc | main.py:59 | Appending a name to a path of at least one name appends `/` and that name to the joined string. |
| Paths.SplitJoin | main.py:175 | For slash-free names, `pathlib` reads a joined path back as exactly its names. |
| Paths.JoinSplit | main.py:175 | Joining the parts of any string gives back that string. |
| Resolver.Resolve | main.py:55-61 | A resolved path has at least one name and no more names than unvisited catalog ids. Its last name is the item's own name. |
| Resolver.RecurseToRoot | main.py:55-61 | The source recursion never reports a cycle. When it returns a path, the id was in the catalog. |
| Resolver.CycleMeansLoop | main.py:55-61 | A reported cycle means that the first-parent chain really returns to an earlier position. |
| Resolver.CycleMeansSourceDiverges | main.py:55-61 | If `Resolve` reports a cycle, the source recursion runs out of stack at every depth and never returns a path. |
| Resolver.SuccessIsStable | main.py:55-61 | Once the source recursion returns a path, any deeper stack returns the same path. |
| Resolver.DeepEnoughStackAgrees | main.py:55-61 | With room for at least one call per name of a resolved path, the source returns that path joined by `/`. |
| Resolver.ShallowStackFails | main.py:55-61 | With room for fewer calls than names of a resolved path, the source runs out of stack. |
| Resolver.AgreesAtChainDepth | main.py:55-61 | For an id that resolves, the source returns the path joined by `/` if and only if the stack allows a call per name of the path; otherwise it fails with `RecursionError`. The catalog size plays no part. |
| Resolver.Depth | main.py:55-61 | The number of first-parent steps the resolution takes before it stops; for a resolved path it is one less than the number of names. |
| Resolver.SourceAgreesAtDepth | main.py:55-61 | If `Resolve` reports no cycle, the source returns exactly `Resolve`'s result, path or error, when the stack allows more calls than `Depth`, and runs out of stack otherwise. The catalog size plays no part. |
| Resolver.SourceAgreesOrRunsOut | main.py:55-61 | If `Resolve` reports no cycle, the source, at any stack depth, returns the same path or error or runs out of stack; it never returns anything else. |
| Resolver.FailureAtDepth | main.py:56-58 | A failure other than a cycle comes from the id `Depth` steps up the chain: either no item has that id, or its `parents` list is empty. |
| Resolver.MissingAncestorAtDepth | main.py:56-59 | An ancestor k steps up that no item has makes the source fail on that id (`"parents" in None` raises), reported as `MissingItem`, once the stack allows more than k calls, whatever the catalog size. |
| Resolver.TerminatingSourceAgrees | main.py:55-61 | If `Resolve` reports no cycle, the source with room for more calls than ids gives the same result: the path joined by `/`, or the same error. |
| Resolver.AcyclicNeverCycles | main.py:55-61 | On a catalog where no item is its own ancestor, no cycle is reported. |
| Resolver.NoDanglingNeverMissing | main.py:56-58 | When every listed `parents` is non-empty and its first id is present, resolving a catalog id either succeeds or reports a cycle. |
| Resolver.WellFormedResolves | main.py:55-61 | On such a catalog without cycles, every id resolves. The source returns that path joined by `/` exactly when the stack allows as many calls as the path has names, and runs out of stack otherwise. |
| Resolver.ResolvedChain | main.py:55-61 | A resolved path lists the names of the first-parent chain, root first, and the chain ends at an item without `parents`. |
| Resolver.RootAtDepthResolves | main.py:55-61 | If the chain reaches an item without `parents` after k ancestors, the item resolves to exactly k+1 names. |
| Resolver.RootResolvesToName | main.py:60-61 | An item without a `parents` key resolves to its own name alone. |
| Resolver.ParentThenName | main.py:57-59 | If an item with parents resolves, its `parents[0]` resolves too, and the item's path is that path followed by its own name. |
| Resolver.ParentResolvesThenChild | main.py:57-59 | Conversely, if an item's `parents[0]` resolves, the item resolves to that path followed by its own name. |
| Resolver.OnlyFirstParentMatters | main.py:58 | Cutting every `parents` list down to its first entry changes no result. |
| Resolver.AbsentParentFails | main.py:56-57 | A first parent missing from the catalog is a `MissingItem` failure naming it, in both definitions, and never a default. |
| Listing.FilesOf | main.py:45 | `results.get("files", [])`: a response without `files` contributes nothing. `Listing.CollectPages` states its use. |
| Listing.Flatten | main.py:46 | The files of the responses, response after response. `Listing.FlattenAppend` states how it splits. |
| Listing.FinalPage | main.py:47-50 | The loop stops at the first response without `nextPageToken`. Every earlier response carried one. |
| Listing.FlattenAppend | main.py:45-46 | Pages contribute their files in page order (flattening distributes over concatenation). |
| Listing.CollectPages | main.py:35-50 | The loop succeeds exactly when some response lacks a token. The items are the files of every response up to and including that one, in order; a missing `files` key counts as empty. The first request passes no token, and each later one passes the previous response's token with page size 1000. |
| Listing.NonFolders | main.py:63-67 | No folder is kept, and the result is no longer than the input. |
| Listing.NonFoldersMultiplicity | main.py:63-67 | Each non-folder item is kept exactly as often as it occurs, and folders not at all. |
| Listing.NonFoldersAppend | main.py:63-67 | The filter keeps relative order: filtering a concatenation concatenates the filtered parts. |
| Listing.ResolveEach | main.py:69-70 | It succeeds exactly when every file resolves, giving each file its own path in the same order. On failure, the error is that of the first file that fails. |
| Listing.ListFiles | main.py:31-72 | Without a final page it fails. Otherwise it succeeds if and only if every non-folder item of the accumulated list resolves. The result then holds exactly those items, in order, each with its resolved path, and no folder. On failure the error is that of the first item that does not resolve. |
| Listing.ListedPathsMatchSource | main.py:69-70 | Every listed path equals the string the source recursion computes for that file when the stack allows a call per name of the path. With room for fewer calls the source runs out of stack on that file. |
| Export.DownloadKernel | main.py:137-178 | The dispatch table: a folder fails with "Folder found among files.". The three Google types export to `.docx`/`.xlsx`/`.pptx` with the matching OOXML type. Anything else is a raw fetch under its name. The directory is the path without its last part, and the destination is that directory plus the file name. |
| Export.DownloadAll | main.py:183-188 | Downloading the files in turn succeeds exactly when none is a folder. Otherwise it stops with the folder error. Each download is the kernel's result for its file. |
| Export.Mirror | main.py:178-180 | The mirror holds exactly the destinations that were written. |
| Export.LastWriteWins | main.py:178-180 | Each destination holds the file of the last download written there. |
| LocalTree.WriteOne | main.py:175-180 | One download's local steps: `os.makedirs` fails if a file sits on the directory's path, and opening fails if the destination is a directory. Otherwise the directory chain exists and the destination holds the file. `LocalTree.WriteOneSucceedsIff` states when it succeeds. |
| LocalTree.WriteAll | main.py:183-188 | After the writes succeed, the directories are exactly those on the downloads' directory paths, and the files are exactly the mirror. |
| LocalTree.WriteOneSucceedsIff | main.py:175-180 | Appending one download succeeds if and only if no earlier destination lies on its directory path and its destination lies on no earlier directory path. |
| LocalTree.NoCollisionStep | main.py:183-188 | A sequence of downloads is collision-free exactly when all but the last are and the last collides with none of them. |
| LocalTree.WriteAllSucceedsIff | main.py:175-188 | The writes succeed if and only if no destination lies on any download's directory path, whichever of the two is written first. |
| Pipeline.Run | main.py:194-203 | Without a final page the run fails with the listing error. If some non-folder item does not resolve, it fails with that item's error. Otherwise no folder reaches the kernel, and the run succeeds if and only if no name is wanted both as a file and as a directory. On success the local files are the mirror of the downloads, and on failure the error is the first failing write's. |
| Pipeline.DestinationOfResolvedPath | main.py:175-178 | For a path built from slash-free names, the directory created is the path without its last name, and the file is written there under its dispatched name. |
| Scenarios.ParentChildListing | test/test_quickstart.py:79-98 | Child under folder Parent: the folder is dropped and the file's path is "Parent/Child". |
| Scenarios.DocumentUnderFolder | main.py:145-178 | A document under Parent exports as Word and is written as Parent/Child.docx after creating Parent. |
| Scenarios.RootLevelFile | main.py:163-178 | Any root-level file of a kind that is not exported, with a slash-free name, is fetched raw under its own name and written in the current directory. |
| Scenarios.FolderRejected | main.py:115-141 | A folder reaching the kernel, with an empty listing of its children, fails with "Folder found among files.". |
| Scenarios.SelfParentIsCycle | main.py:55-61 | A self-parented item is reported as a cycle, while the source runs out of stack. |
| Scenarios.DanglingParentFails | test/test_quickstart.py:34-44 | The fixture's file, whose parent "0" is not listed, fails to resolve. |
| Scenarios.FileAndFolderSameName | main.py:175-178 | A file "A/B" and a folder "A/B" holding "C" always fail: writing the file first makes `os.makedirs("A/B")` fail, and writing "C" first makes opening "A/B" fail. |
| Scenarios.SecondWriteWins | main.py:178-180 | Two files with the same destination leave only the second one's content. |

## Left out

- `create_service` and `config/config.py`: credential loading and building the API client. This is YAML and OAuth plumbing over the Google client libraries, which the model does not cover.
- The HTTP calls, the `MediaIoBaseDownload` chunk loop and its progress printing. Only the request each file produces is modelled, not the bytes.
- The real `os.makedirs` and file write. `LocalTree` replays them on a tree that starts out empty. Files already in the current directory, permissions and a full disk are not modelled. `os.makedirs` failing with `FileExistsError` or `NotADirectoryError` is one error, `MakeDirsFailed`.
- Interleaving. The source downloads and writes file by file, so a failing write comes after the earlier files' requests. The model computes all requests first and then the writes. This changes nothing that is observable here, because no kernel call fails after the listing.
- The listing and download of a folder's children inside `is_folder_and_download`. This is a remote side effect. The model keeps only that a folder reaching the kernel ends the run with an exception.
- Export.DownloadKernel: `FolderFound` stands for whatever exception a folder's children raise first. The message "Folder found among files." is guaranteed only for a folder whose children listing is empty. Otherwise the first child is downloaded first, and the first failing descendant decides the exception; that may again be "Folder found among files.", raised for a descendant folder with an empty listing. A non-folder child never completes its download: its listing asks for no `path` key, so `Path(file["path"])` would raise `KeyError` even if the download step before it succeeded. No folder reaches the kernel from `main`, because `list_files` drops them.
- `main`'s timing and printing, the unused `ThreadPoolExecutor` import and the commented-out parallel download. The pipeline is sequential.
- The commented-out older `list_files`.
- Listing.CollectPages: a service that never sends a final page is cut off with `NoFinalPage`, because the responses are given as a finite sequence; the source would keep requesting.
- Resolver.Resolve: it reports a parent cycle as `ParentCycle` where the source ends in `RecursionError`. `Resolver.CycleMeansSourceDiverges` ties the two together.
- Resolver.RecurseToRoot: Python's stack depth at the call is not known, so it is the `fuel` parameter. `fuel` counts `recurse_to_the_root` calls, not Python frames: each call's `next(...)` lookup also runs a generator expression in a frame above its own, so the source needs at least one Python frame more than `fuel` calls, and the exact frame count is not modelled.
- Paths.SplitPath: `pathlib`'s folding of `//`, `.` parts and a trailing `/` is not modelled; names are assumed non-empty, not `.` or `..`, and free of `/`. A `..` name would make the source open the current directory's parent as a file, or write outside the current directory; `LocalTree` would treat `..` as an ordinary fresh name.
- Names are compared as exact character sequences; there is no Unicode normalisation and no case folding. On a case-insensitive file system (the default on macOS and Windows), `a.pdf` and `A.pdf` under one folder become one file, and a file `docs` collides with a folder `Docs`. On such a system `Export.Mirror`, `LocalTree.WriteAllSucceedsIff` and the run's outcome describe a case-sensitive disk, not what happens.

=== FILE: catalog.dfy ===
/** The flat catalog built by `list_files` and the lookup by id that
    `recurse_to_the_root` performs on it (main.py:56). */
module Catalog {
  import opened Results
  import opened Drive

  /** Every id that occurs in the catalog. */
  function Ids(items: seq<Item>): set<string> {
    set i | 0 <= i < |items| :: items[i].id
  }

  /** The position of the first item with the given id, as the generator
      expression inside `next(...)` scans the list front to back. */
  function FindFirst(items: seq<Item>, id: string): (r: Option<nat>)
    ensures r.Some? ==> r.value < |items| && items[r.value].id == id
    ensures r.Some? ==> forall j :: 0 <= j < r.value ==> items[j].id != id
    ensures r.None? ==> forall j :: 0 <= j < |items| ==> items[j].id != id
  {
    if |items| == 0 then None
    else if items[0].id == id then Some(0)
    else match FindFirst(items[1..], id)
      case None => None
      case Some(i) => Some(i + 1)
  }

  /** `next((item for item in all_files if item["id"] == item_id), None)`. */
  function Lookup(items: seq<Item>, id: string): (r: Option<Item>)
    ensures r.Some? <==> id in Ids(items)
    ensures r.Some? ==> r.value.id == id
  {
    match FindFirst(items, id)
    case None => None
    case Some(i) => Some(items[i])
  }

  /** The item found is the first one in list order that carries the id. */
  lemma LookupIsFirstMatch(items: seq<Item>, id: string)
    requires Lookup(items, id).Some?
    ensures exists i :: 0 <= i < |items| && items[i] == Lookup(items, id).value
                        && forall j :: 0 <= j < i ==> items[j].id != id
  {
    var i := FindFirst(items, id).value;
    assert items[i] == Lookup(items, id).value;
  }

  /** Two catalogs that carry the same ids in the same order find the same
      first position for every id, whatever else differs. */
  lemma {:induction false} SameIdsSamePosition(a: seq<Item>, b: seq<Item>, id: string)
    requires |a| == |b|
    requires forall i :: 0 <= i < |a| ==> a[i].id == b[i].id
    ensures FindFirst(a, id) == FindFirst(b, id)
    decreases |a|
  {
    if |a| > 0 && a[0].id != id {
      SameIdsSamePosition(a[1..], b[1..], id);
    }
  }
}

=== FILE: drive.dfy ===
/** The records returned by the Drive listing call, and the MIME types the
    loader dispatches on (main.py). */
module Drive {
  import opened Results

  /** Marks an item as a folder; folders only ever serve as path segments. */
  const FolderMime: string := "application/vnd.google-apps.folder"

  /** The three Google-native document kinds that must be exported. */
  const DocumentMime: string := "application/vnd.google-apps.document"
  const SpreadsheetMime: string := "application/vnd.google-apps.spreadsheet"
  const PresentationMime: string := "application/vnd.google-apps.presentation"

  /** One entry of a listing page: the fields `id, name, parents, mimeType`
      requested at main.py:40. `parents` is `None` when the key is absent
      (a root-level item) and `Some(ids)` when it is present. */
  datatype Item = Item(id: string, name: string, mimeType: string, parents: Option<seq<string>>)

  predicate IsFolder(item: Item) {
    item.mimeType == FolderMime
  }
}

=== FILE: export.dfy ===
/** `download_file_kernel` and `download_files` (main.py:115-188): the
    folder check, the MIME-type dispatch, and where each file is written.
    The bytes themselves are not modelled; a download is described by the
    request it sends and the place it writes to. */
module Export {
  import opened Results
  import opened Drive
  import opened Paths
  import opened Listing

  /** The exception message raised for a folder (main.py:141). */
  const FolderMessage: string := "Folder found among files."

  /** The Office Open XML types the three Google-native kinds export to. */
  const DocxMime: string := "application/vnd.openxmlformats-officedocument.wordprocessingml.document"
  const XlsxMime: string := "application/vnd.openxmlformats-officedocument.spreadsheetml.sheet"
  const PptxMime: string := "application/vnd.openxmlformats-officedocument.presentationml.presentation"

  /** Export target and filename suffix of one convertible kind. */
  datatype ExportFormat = ExportFormat(mimeType: string, suffix: string)

  /** The dispatch table of main.py:145-162, keyed by source MIME type. */
  const ExportFormats: map<string, ExportFormat> :=
    map[DocumentMime := ExportFormat(DocxMime, ".docx"),
        SpreadsheetMime := ExportFormat(XlsxMime, ".xlsx"),
        PresentationMime := ExportFormat(PptxMime, ".pptx")]

  /** The request built for a file: `export_media` with a target MIME type,
      or a raw `get_media`. */
  datatype MediaRequest = ExportMedia(fileId: string, mimeType: string) | GetMedia(fileId: string)

  /** One completed download: the request sent, the file name, the directory
      created (`os.makedirs`) and the file written. The empty directory is
      the current directory ".". */
  datatype Download = Download(request: MediaRequest, filename: string, directory: seq<string>, destination: seq<string>)

  /** The exception that ends the run when a folder reaches the kernel. For
      a folder with no listed children it is the "Folder found among files."
      exception; otherwise the children are downloaded first, the first of
      them fails, and the first failing descendant decides the exception. */
  datatype DownloadError = FolderFound(message: string)

  /** `download_file_kernel` (main.py:137-180). */
  function DownloadKernel(file: ListedFile): (r: Result<Download, DownloadError>)
    ensures r.Failure? <==> IsFolder(file.item)
    ensures r.Failure? ==> r.error == FolderFound(FolderMessage)
    ensures file.item.mimeType == DocumentMime ==>
              r.Success? && r.value.filename == file.item.name + ".docx"
              && r.value.request == ExportMedia(file.item.id, DocxMime)
    ensures file.item.mimeType == SpreadsheetMime ==>
              r.Success? && r.value.filename == file.item.name + ".xlsx"
              && r.value.request == ExportMedia(file.item.id, XlsxMime)
    ensures file.item.mimeType == PresentationMime ==>
              r.Success? && r.value.filename == file.item.name + ".pptx"
              && r.value.request == ExportMedia(file.item.id, PptxMime)
    ensures file.item.mimeType !in {FolderMime, DocumentMime,
                                    SpreadsheetMime, PresentationMime} ==>
              r.Success? && r.value.filename == file.item.name && r.value.request == GetMedia(file.item.id)
    ensures r.Success? ==> r.value.directory + [SplitPath(file.path)[|SplitPath(file.path)| - 1]] == SplitPath(file.path)
    ensures r.Success? ==> r.value.destination == r.value.directory + [r.value.filename]
  {
    if IsFolder(file.item) then Failure(FolderFound(FolderMessage))  // is_folder_and_download (main.py:116)
    else
      var item := file.item;
      var request :=
        if item.mimeType in ExportFormats then ExportMedia(item.id, ExportFormats[item.mimeType].mimeType)
        else GetMedia(item.id);
      var filename :=
        if item.mimeType in ExportFormats then item.name + ExportFormats[item.mimeType].suffix
        else item.name;
      var directory := ParentDir(file.path);
      Success(Download(request, filename, directory, directory + [filename]))
  }

  /** `download_files` (main.py:183-188): the kernel on each file in turn;
      the first exception ends the run. */
  function DownloadAll(files: seq<ListedFile>): (r: Result<seq<Download>, DownloadError>)
    ensures r.Success? <==> forall i :: 0 <= i < |files| ==> !IsFolder(files[i].item)
    ensures r.Success? ==> |r.value| == |files|
    ensures r.Success? ==> forall i :: 0 <= i < |files| ==> DownloadKernel(files[i]) == Success(r.value[i])
    ensures r.Failure? ==> r.error == FolderFound(FolderMessage)
  {
    if |files| == 0 then Success([])
    else
      match DownloadKernel(files[0])
      case Failure(e) => Failure(e)
      case Success(d) =>
        match DownloadAll(files[1..])
        case Failure(e) => Failure(e)
        case Success(rest) => Success([d] + rest)
  }

  /** The destinations written, in order. */
  function Destinations(ds: seq<Download>): set<seq<string>> {
    set i | 0 <= i < |ds| :: ds[i].destination
  }

  /** The local mirror after the downloads ran in order: each destination
      holds the bytes of the file written there, named by its id. Writing
      opens with "wb", so a later write to the same place replaces the
      earlier one. */
  function Mirror(ds: seq<Download>): (m: map<seq<string>, string>)
    ensures m.Keys == Destinations(ds)
  {
    if |ds| == 0 then map[]
    else
      var last := ds[|ds| - 1];
      assert Destinations(ds) == Destinations(ds[..|ds| - 1]) + {last.destination} by {
        assert forall i :: 0 <= i < |ds| - 1 ==> ds[..|ds| - 1][i] == ds[i];
      }
      Mirror(ds[..|ds| - 1])[last.destination := last.request.fileId]
  }

  /** Each destination holds the file of the last download written there. */
  lemma {:induction false} LastWriteWins(ds: seq<Download>, i: nat)
    requires i < |ds|
    requires forall j :: i < j < |ds| ==> ds[j].destination != ds[i].destination
    ensures ds[i].destination in Mirror(ds)
    ensures Mirror(ds)[ds[i].destination] == ds[i].request.fileId
    decreases |ds|
  {
    if i < |ds| - 1 {
      var init := ds[..|ds| - 1];
      assert init[i] == ds[i];
      assert forall j :: i < j < |init| ==> init[j] == ds[j];
      LastWriteWins(init, i);
    }
  }
}

=== FILE: listing.dfy ===
/** `list_files` (main.py:31-72): accumulate the listing pages, drop the
    folders, and give every remaining item its resolved path. */
module Listing {
  import opened Results
  import opened Drive
  import opened Catalog
  import opened Paths
  import opened Resolver

  /** `pageSize=1000` in every listing call. */
  const PageSize: nat := 1000

  /** The response to one `files().list(...).execute()` call. A missing
      `files` or `nextPageToken` key is `None`. */
  datatype Page = Page(files: Option<seq<Item>>, nextPageToken: Option<string>)

  /** The arguments of one listing call that are not fixed strings. */
  datatype ListRequest = ListRequest(pageSize: nat, pageToken: Option<string>)

  datatype ListError =
    | NoFinalPage                   // every response carried a nextPageToken
    | Unresolved(error: ResolveError)

  /** What the accumulation loop leaves behind: the items in order and the
      requests it sent. */
  datatype Collected = Collected(items: seq<Item>, requests: seq<ListRequest>)

  /** An item of the final list: the listing record plus `file["path"]`. */
  datatype ListedFile = ListedFile(item: Item, path: string)

  /** `results.get("files", [])`. */
  function FilesOf(page: Page): seq<Item> {
    match page.files
    case None => []
    case Some(fs) => fs
  }

  /** The files of the pages, page after page. */
  function Flatten(pages: seq<Page>): seq<Item> {
    if |pages| == 0 then [] else Flatten(pages[..|pages| - 1]) + FilesOf(pages[|pages| - 1])
  }

  /** The position of the first response without a `nextPageToken`: the
      response after which the loop stops. */
  function FinalPage(pages: seq<Page>): (r: Option<nat>)
    ensures r.Some? ==> r.value < |pages| && pages[r.value].nextPageToken.None?
    ensures r.Some? ==> forall j :: 0 <= j < r.value ==> pages[j].nextPageToken.Some?
    ensures r.None? ==> forall j :: 0 <= j < |pages| ==> pages[j].nextPageToken.Some?
  {
    if |pages| == 0 then None
    else if pages[0].nextPageToken.None? then Some(0)
    else match FinalPage(pages[1..])
      case None => None
      case Some(i) => Some(i + 1)
  }

  /** Flattening distributes over concatenation: pages contribute their
      files in page order. */
  lemma {:induction false} FlattenAppend(a: seq<Page>, b: seq<Page>)
    ensures Flatten(a + b) == Flatten(a) + Flatten(b)
    decreases |b|
  {
    if |b| > 0 {
      var c := a + b;
      assert c[..|c| - 1] == a + b[..|b| - 1];
      FlattenAppend(a, b[..|b| - 1]);
    } else {
      assert a + b == a;
    }
  }

  /** The `while True` loop of main.py:35-50. `pages` are the responses the
      service gives, in call order; each call passes the previous
      response's `nextPageToken`, and the loop stops after the first
      response without one. */
  method CollectPages(pages: seq<Page>) returns (r: Result<Collected, ListError>)
    ensures r.Success? <==> FinalPage(pages).Some?
    ensures r.Failure? ==> r.error == NoFinalPage
    ensures r.Success? ==> r.value.items == Flatten(pages[..FinalPage(pages).value + 1])
    ensures r.Success? ==> |r.value.requests| == FinalPage(pages).value + 1
    ensures r.Success? ==> forall i :: 0 <= i < |r.value.requests| ==>
              r.value.requests[i] == ListRequest(PageSize, if i == 0 then None else pages[i - 1].nextPageToken)
  {
    var all: seq<Item> := [];
    var requests: seq<ListRequest> := [];
    var token: Option<string> := None;
    var i := 0;
    while i < |pages|
      invariant 0 <= i <= |pages|
      invariant forall j :: 0 <= j < i ==> pages[j].nextPageToken.Some?
      invariant all == Flatten(pages[..i])
      invariant |requests| == i
      invariant forall j :: 0 <= j < i ==>
                  requests[j] == ListRequest(PageSize, if j == 0 then None else pages[j - 1].nextPageToken)
      invariant token == if i == 0 then None else pages[i - 1].nextPageToken
    {
      requests := requests + [ListRequest(PageSize, token)];
      all := all + FilesOf(pages[i]);
      assert pages[..i + 1][..i] == pages[..i];
      token := pages[i].nextPageToken;
      if token.None? {
        return Success(Collected(all, requests));
      }
      i := i + 1;
    }
    return Failure(NoFinalPage);
  }

  /** The list comprehension of main.py:63-67: every item that is not a
      folder, in list order. */
  function NonFolders(items: seq<Item>): (r: seq<Item>)
    ensures forall i :: 0 <= i < |r| ==> !IsFolder(r[i])
    ensures |r| <= |items|
  {
    if |items| == 0 then []
    else (if IsFolder(items[0]) then [] else [items[0]]) + NonFolders(items[1..])
  }

  /** Every non-folder item is kept as often as it occurs, and no folder is. */
  lemma {:induction false} NonFoldersMultiplicity(items: seq<Item>, it: Item)
    ensures multiset(NonFolders(items))[it] == if IsFolder(it) then 0 else multiset(items)[it]
    decreases |items|
  {
    if |items| > 0 {
      NonFoldersMultiplicity(items[1..], it);
      assert items == [items[0]] + items[1..];
      assert multiset(items) == multiset([items[0]]) + multiset(items[1..]);
    }
  }

  /** The filter keeps relative order: the kept items of a concatenation
      are the kept items of each part, in order. */
  lemma {:induction false} NonFoldersAppend(a: seq<Item>, b: seq<Item>)
    ensures NonFolders(a + b) == NonFolders(a) + NonFolders(b)
    decreases |a|
  {
    if |a| == 0 {
      assert a + b == b;
    } else {
      assert (a + b)[1..] == a[1..] + b;
      NonFoldersAppend(a[1..], b);
    }
  }

  /** The loop of main.py:69-70: each file in turn gets its path from the
      whole accumulated list; the first failure ends `list_files`. */
  function ResolveEach(all: seq<Item>, files: seq<Item>): (r: Result<seq<ListedFile>, ResolveError>)
    ensures r.Success? <==> forall i :: 0 <= i < |files| ==> Resolve(all, files[i].id, {}).Success?
    ensures r.Success? ==> |r.value| == |files|
    ensures r.Success? ==> forall i :: 0 <= i < |files| ==>
              r.value[i] == ListedFile(files[i], JoinPath(Resolve(all, files[i].id, {}).value))
    ensures r.Failure? ==> exists i :: 0 <= i < |files| && Resolve(all, files[i].id, {}) == Failure(r.error)
                              && forall j :: 0 <= j < i ==> Resolve(all, files[j].id, {}).Success?
  {
    if |files| == 0 then Success([])
    else
      match Resolve(all, files[0].id, {})
      case Failure(e) => Failure(e)
      case Success(p) =>
        match ResolveEach(all, files[1..])
        case Failure(e) =>
          FirstFailureShifts(all, files, e);
          Failure(e)
        case Success(rest) => Success([ListedFile(files[0], JoinPath(p))] + rest)
  }

  /** The first failing file of the tail, once the head resolves, is the
      first failing file of the whole list, one position further on. */
  lemma FirstFailureShifts(all: seq<Item>, files: seq<Item>, e: ResolveError)
    requires |files| > 0 && Resolve(all, files[0].id, {}).Success?
    requires exists i :: 0 <= i < |files[1..]| && Resolve(all, files[1..][i].id, {}) == Failure(e)
                           && forall j :: 0 <= j < i ==> Resolve(all, files[1..][j].id, {}).Success?
    ensures exists i :: 0 <= i < |files| && Resolve(all, files[i].id, {}) == Failure(e)
                          && forall j :: 0 <= j < i ==> Resolve(all, files[j].id, {}).Success?
  {
    var k :| 0 <= k < |files[1..]| && Resolve(all, files[1..][k].id, {}) == Failure(e)
               && forall j :: 0 <= j < k ==> Resolve(all, files[1..][j].id, {}).Success?;
    assert files[k + 1] == files[1..][k];
    forall j | 0 <= j < k + 1
      ensures Resolve(all, files[j].id, {}).Success?
    {
      if j > 0 {
        assert files[j] == files[1..][j - 1];
      }
    }
  }

  /** `list_files` on the given service responses. */
  method ListFiles(pages: seq<Page>) returns (r: Result<seq<ListedFile>, ListError>)
    ensures FinalPage(pages).None? ==> r == Failure(NoFinalPage)
    ensures r.Success? ==> FinalPage(pages).Some?
    ensures FinalPage(pages).Some? ==>
              var all := Flatten(pages[..FinalPage(pages).value + 1]);
              r.Success? <==> forall i :: 0 <= i < |NonFolders(all)| ==> Resolve(all, NonFolders(all)[i].id, {}).Success?
    ensures FinalPage(pages).Some? && r.Failure? ==>
              var all := Flatten(pages[..FinalPage(pages).value + 1]);
              ResolveEach(all, NonFolders(all)).Failure? && r.error == Unresolved(ResolveEach(all, NonFolders(all)).error)
    ensures FinalPage(pages).Some? && r.Success? ==>
              var all := Flatten(pages[..FinalPage(pages).value + 1]);
              ResolveEach(all, NonFolders(all)).Success? && r.value == ResolveEach(all, NonFolders(all)).value
    ensures r.Success? ==> forall i :: 0 <= i < |r.value| ==> !IsFolder(r.value[i].item)
    ensures FinalPage(pages).Some? && r.Success? ==>
              var all := Flatten(pages[..FinalPage(pages).value + 1]);
              && |r.value| == |NonFolders(all)|
              && forall i :: 0 <= i < |r.value| ==>
                   r.value[i].item == NonFolders(all)[i]
                   && Resolve(all, r.value[i].item.id, {}).Success?
                   && r.value[i].path == JoinPath(Resolve(all, r.value[i].item.id, {}).value)
  {
    var collected := CollectPages(pages);
    if collected.Failure? {
      return Failure(NoFinalPage);
    }
    var all := collected.value.items;
    var files := NonFolders(all);
    match ResolveEach(all, files)
    case Failure(e) =>
      return Failure(Unresolved(e));
    case Success(listed) =>
      return Success(listed);
  }

  /** Every listed path is the string the source's recursion computes for
      that file when the stack allows a call per name of the path; with fewer
      calls the source runs out of stack on that file. */
  lemma ListedPathsMatchSource(all: seq<Item>, files: seq<Item>, fuel: nat)
    requires ResolveEach(all, files).Success?
    ensures forall i :: 0 <= i < |files| && fuel >= |Resolve(all, files[i].id, {}).value| ==>
              RecurseToRoot(all, files[i].id, fuel) == Success(ResolveEach(all, files).value[i].path)
    ensures forall i :: 0 <= i < |files| && fuel < |Resolve(all, files[i].id, {}).value| ==>
              RecurseToRoot(all, files[i].id, fuel) == Failure(RecursionLimit)
  {
    forall i | 0 <= i < |files|
      ensures RecurseToRoot(all, files[i].id, fuel) ==
                if fuel >= |Resolve(all, files[i].id, {}).value|
                then Success(ResolveEach(all, files).value[i].path)
                else Failure(RecursionLimit)
    {
      AgreesAtChainDepth(all, files[i].id, {}, fuel);
    }
  }
}

=== FILE: localtree.dfy ===
/** The local tree the downloads build (main.py:175-180): each download
    first creates its directory with `os.makedirs(..., exist_ok=True)` and
    then opens its destination with "wb". Both calls fail when the catalog
    puts a file where a directory is needed, or a directory where a file is
    written. Paths are name segments relative to the current directory,
    which the run is taken to start out empty; a segment is an ordinary
    name, never `..`. */
module LocalTree {
  import opened Results
  import opened Export

  /** The directories created so far and, for each written file, the id of
      the Drive file whose content it holds. */
  datatype Tree = Tree(dirs: set<seq<string>>, files: map<seq<string>, string>)

  datatype WriteError =
    | MakeDirsFailed(directory: seq<string>)   // a file already sits on the directory's path
    | OpenFailed(destination: seq<string>)     // the destination is already a directory

  /** `q` is `dir` or one of its ancestors, the current directory excluded. */
  predicate OnDirPath(q: seq<string>, dir: seq<string>) {
    1 <= |q| <= |dir| && dir[..|q|] == q
  }

  /** The directories `os.makedirs(dir)` leaves in place. */
  function DirChain(dir: seq<string>): (r: set<seq<string>>)
    ensures forall q :: q in r <==> OnDirPath(q, dir)
  {
    var r := set k | 1 <= k <= |dir| :: dir[..k];
    assert forall q :: OnDirPath(q, dir) ==> q == dir[..|q|];
    r
  }

  /** The directories created by a sequence of downloads. */
  function MadeDirs(ds: seq<Download>): (r: set<seq<string>>)
    ensures forall q :: q in r <==> exists i :: 0 <= i < |ds| && OnDirPath(q, ds[i].directory)
  {
    if |ds| == 0 then {}
    else
      var init := ds[..|ds| - 1];
      assert forall i :: 0 <= i < |init| ==> init[i] == ds[i];
      MadeDirs(init) + DirChain(ds[|ds| - 1].directory)
  }

  /** One download's two local steps: `os.makedirs` of its directory, then
      writing its destination. */
  function WriteOne(t: Tree, d: Download): Result<Tree, WriteError> {
    if exists q :: q in t.files && OnDirPath(q, d.directory) then Failure(MakeDirsFailed(d.directory))
    else
      var dirs := t.dirs + DirChain(d.directory);
      if d.destination in dirs then Failure(OpenFailed(d.destination))
      else Success(Tree(dirs, t.files[d.destination := d.request.fileId]))
  }

  /** The downloads written in order from an empty current directory; the
      first failing step ends the run. */
  function WriteAll(ds: seq<Download>): (r: Result<Tree, WriteError>)
    ensures r.Success? ==> r.value.dirs == MadeDirs(ds)
    ensures r.Success? ==> r.value.files == Mirror(ds)
  {
    if |ds| == 0 then Success(Tree({}, map[]))
    else
      match WriteAll(ds[..|ds| - 1])
      case Failure(e) => Failure(e)
      case Success(t) => WriteOne(t, ds[|ds| - 1])
  }

  /** No download's destination lies on the directory path of any download
      (itself included): no name is wanted both as a file and as a
      directory. */
  predicate NoCollision(ds: seq<Download>) {
    forall i, j :: 0 <= i < |ds| && 0 <= j < |ds| ==> !OnDirPath(ds[i].destination, ds[j].directory)
  }

  /** A download's destination is never on its own directory path. */
  lemma OwnDestinationOffPath(d: Download)
    requires d.destination == d.directory + [d.filename]
    ensures !OnDirPath(d.destination, d.directory)
  {
  }

  /** Some earlier destination lies on `dir`'s path. */
  predicate FileOnPath(init: seq<Download>, dir: seq<string>) {
    exists i :: 0 <= i < |init| && OnDirPath(init[i].destination, dir)
  }

  /** `p` lies on some earlier download's directory path. */
  predicate DirectoryAt(init: seq<Download>, p: seq<string>) {
    exists i :: 0 <= i < |init| && OnDirPath(p, init[i].directory)
  }

  /** The writes succeed exactly when no name is wanted both as a file and
      as a directory, whichever of the two comes first. */
  lemma {:induction false} WriteAllSucceedsIff(ds: seq<Download>)
    requires forall i :: 0 <= i < |ds| ==> ds[i].destination == ds[i].directory + [ds[i].filename]
    ensures WriteAll(ds).Success? <==> NoCollision(ds)
    decreases |ds|
  {
    if |ds| > 0 {
      var init, last := ds[..|ds| - 1], ds[|ds| - 1];
      assert forall i :: 0 <= i < |init| ==> init[i] == ds[i];
      WriteAllSucceedsIff(init);
      NoCollisionStep(ds);
      if WriteAll(init).Success? {
        WriteOneSucceedsIff(init, WriteAll(init).value, last);
      }
    }
  }

  /** A sequence of downloads is collision-free exactly when all but the
      last are and the last collides with none of them. */
  lemma NoCollisionStep(ds: seq<Download>)
    requires |ds| > 0
    requires forall i :: 0 <= i < |ds| ==> ds[i].destination == ds[i].directory + [ds[i].filename]
    ensures NoCollision(ds) <==>
              NoCollision(ds[..|ds| - 1])
              && !FileOnPath(ds[..|ds| - 1], ds[|ds| - 1].directory)
              && !DirectoryAt(ds[..|ds| - 1], ds[|ds| - 1].destination)
  {
    var init, last := ds[..|ds| - 1], ds[|ds| - 1];
    assert forall i :: 0 <= i < |init| ==> init[i] == ds[i];
    if NoCollision(ds) {
      assert NoCollision(init);
    } else if NoCollision(init) {
      forall k | 0 <= k < |ds|
        ensures !OnDirPath(ds[k].destination, ds[k].directory)
      {
        OwnDestinationOffPath(ds[k]);
      }
      var i, j :| 0 <= i < |ds| && 0 <= j < |ds| && OnDirPath(ds[i].destination, ds[j].directory);
      if j == |ds| - 1 {
        assert FileOnPath(init, last.directory);
      } else {
        assert DirectoryAt(init, last.destination);
      }
    }
  }

  /** Appending one download to earlier writes succeeds exactly when it
      collides with none of the earlier ones. */
  lemma WriteOneSucceedsIff(init: seq<Download>, t: Tree, last: Download)
    requires WriteAll(init) == Success(t)
    requires last.destination == last.directory + [last.filename]
    ensures WriteOne(t, last).Success? <==> !FileOnPath(init, last.directory) && !DirectoryAt(init, last.destination)
  {
    var blocked := exists q :: q in t.files && OnDirPath(q, last.directory);
    var taken := last.destination in t.dirs;
    assert WriteOne(t, last).Success? <==> !blocked && !taken by {
      OwnDestinationOffPath(last);
    }
    assert blocked <==> FileOnPath(init, last.directory) by {
      FileOnPathIff(init, t, last.directory);
    }
    assert taken <==> DirectoryAt(init, last.destination) by {
      DirectoryAtIff(init, t, last.destination);
    }
  }

  /** A written file sits on `dir`'s path exactly when some earlier
      destination does. */
  lemma FileOnPathIff(init: seq<Download>, t: Tree, dir: seq<string>)
    requires WriteAll(init) == Success(t)
    ensures (exists q :: q in t.files && OnDirPath(q, dir)) <==> FileOnPath(init, dir)
  {
    DestinationsOfMirror(init);
    if exists q :: q in t.files && OnDirPath(q, dir) {
      var q :| q in t.files && OnDirPath(q, dir);
      var i :| 0 <= i < |init| && init[i].destination == q;
      assert OnDirPath(init[i].destination, dir);
    }
    if FileOnPath(init, dir) {
      var i :| 0 <= i < |init| && OnDirPath(init[i].destination, dir);
      assert init[i].destination in t.files;
    }
  }

  /** A path is already a directory exactly when it lies on some earlier
      download's directory path. */
  lemma DirectoryAtIff(init: seq<Download>, t: Tree, p: seq<string>)
    requires WriteAll(init) == Success(t)
    ensures p in t.dirs <==> DirectoryAt(init, p)
  {
  }

  /** The files of the mirror are the destinations written. */
  lemma DestinationsOfMirror(ds: seq<Download>)
    ensures forall q :: q in Mirror(ds) <==> exists i :: 0 <= i < |ds| && ds[i].destination == q
  {
  }
}

=== FILE: paths.dfy ===
/** Slash-separated path strings and their segments.

    The loader builds a path string by nesting f-strings (`parent + "/" + name`)
    and later hands it to `pathlib.Path`, which splits it on "/" again. A path
    is modelled as its sequence of name segments; `JoinPath` and `SplitPath`
    convert between the two forms. */
module Paths {

  /** A segment that contains no separator. */
  predicate SlashFree(s: string) {
    forall i :: 0 <= i < |s| ==> s[i] != '/'
  }

  /** True when every segment is slash-free. */
  predicate AllSlashFree(segs: seq<string>) {
    forall i :: 0 <= i < |segs| ==> SlashFree(segs[i])
  }

  /** "a", "a/b", "a/b/c", ...: the segments joined by "/". */
  function JoinPath(segs: seq<string>): string
  {
    if |segs| == 0 then ""
    else if |segs| == 1 then segs[0]
    else segs[0] + "/" + JoinPath(segs[1..])
  }

  /** The parts of a path string between its separators (how `pathlib`
      reads a path made of non-empty, slash-free names). */
  function SplitPath(s: string): (r: seq<string>)
    ensures |r| >= 1
    ensures AllSlashFree(r)
  {
    if |s| == 0 then [""]
    else
      var rest := SplitPath(s[1..]);
      if s[0] == '/' then [""] + rest
      else [[s[0]] + rest[0]] + rest[1..]
  }

  /** `Path(s).parent` as segments: every part but the last. The empty
      sequence is the current directory ".". */
  function ParentDir(s: string): (r: seq<string>)
    ensures |r| + 1 == |SplitPath(s)|
    ensures r == SplitPath(s)[..|r|]
  {
    var parts := SplitPath(s);
    parts[..|parts| - 1]
  }

  /** The parent of a path joined from slash-free names is the path of all
      names but the last; a single name has the current directory as its
      parent. */
  lemma {:induction false} ParentOfJoined(segs: seq<string>)
    requires |segs| >= 1 && AllSlashFree(segs)
    ensures ParentDir(JoinPath(segs)) == segs[..|segs| - 1]
  {
    SplitJoin(segs);
  }

  /** Appending one more segment appends "/" and that segment to the string:
      the step `f"{parent}/{name}"` of the source's recursion. */
  lemma {:induction false} JoinSnoc(p: seq<string>, t: string)
    requires |p| >= 1
    ensures JoinPath(p + [t]) == JoinPath(p) + "/" + t
    decreases |p|
  {
    if |p| == 1 {
      assert p + [t] == [p[0], t];
      assert (p + [t])[1..] == [t];
    } else {
      assert (p + [t])[1..] == p[1..] + [t];
      JoinSnoc(p[1..], t);
    }
  }

  /** A slash-free string is a single part. */
  lemma {:induction false} SplitSlashFree(a: string)
    requires SlashFree(a)
    ensures SplitPath(a) == [a]
    decreases |a|
  {
    if |a| > 0 {
      SplitSlashFree(a[1..]);
      assert [a[0]] + a[1..] == a;
    }
  }

  /** Splitting stops at the first separator. */
  lemma {:induction false} SplitAfterSegment(a: string, t: string)
    requires SlashFree(a)
    ensures SplitPath(a + "/" + t) == [a] + SplitPath(t)
    decreases |a|
  {
    var s := a + "/" + t;
    if |a| == 0 {
      assert s[1..] == t;
    } else {
      assert s[1..] == a[1..] + "/" + t;
      SplitAfterSegment(a[1..], t);
      assert [a[0]] + a[1..] == a;
    }
  }

  /** Splitting a joined path gives back its segments, provided no segment
      contains the separator. */
  lemma {:induction false} SplitJoin(segs: seq<string>)
    requires |segs| >= 1
    requires AllSlashFree(segs)
    ensures SplitPath(JoinPath(segs)) == segs
    decreases |segs|
  {
    if |segs| == 1 {
      SplitSlashFree(segs[0]);
    } else {
      SplitJoin(segs[1..]);
      SplitAfterSegment(segs[0], JoinPath(segs[1..]));
      assert [segs[0]] + segs[1..] == segs;
    }
  }

  /** Joining the parts of any string gives back the string. */
  lemma {:induction false} JoinSplit(s: string)
    ensures JoinPath(SplitPath(s)) == s
    decreases |s|
  {
    if |s| > 0 {
      var rest := SplitPath(s[1..]);
      JoinSplit(s[1..]);
      if s[0] == '/' {
        assert ([""] + rest)[1..] == rest;
      } else {
        var r := [[s[0]] + rest[0]] + rest[1..];
        if |rest| == 1 {
          assert r == [[s[0]] + rest[0]];
        } else {
          assert r[1..] == rest[1..];
          assert JoinPath(rest) == rest[0] + "/" + JoinPath(rest[1..]);
        }
      }
    }
  }
}

=== FILE: pipeline.dfy ===
/** How the pieces fit together in `main` (main.py:191-206): list the files,
    then download each one. */
module Pipeline {
  import opened Results
  import opened Drive
  import opened Paths
  import opened Resolver
  import opened Listing
  import opened Export
  import opened LocalTree

  datatype RunError =
    | ListingFailed(listError: ListError)
    | DownloadFailed(downloadError: DownloadError)
    | WriteFailed(writeError: WriteError)

  /** `list_files` followed by `download_files`, starting from an empty
      current directory. The result is the local mirror: each file written,
      mapped to the id of the Drive file whose content it holds. */
  method Run(pages: seq<Page>) returns (r: Result<map<seq<string>, string>, RunError>)
    ensures FinalPage(pages).None? ==> r == Failure(ListingFailed(NoFinalPage))
    ensures FinalPage(pages).Some? ==>
              var all := Flatten(pages[..FinalPage(pages).value + 1]);
              var listed := ResolveEach(all, NonFolders(all));
              && (listed.Failure? ==> r == Failure(ListingFailed(Unresolved(listed.error))))
              && (listed.Success? ==>
                    && DownloadAll(listed.value).Success?
                    && var ds := DownloadAll(listed.value).value;
                       && (r.Success? <==> NoCollision(ds))
                       && (r.Success? ==> r.value == Mirror(ds))
                       && (r.Failure? ==> WriteAll(ds).Failure? && r == Failure(WriteFailed(WriteAll(ds).error))))
    ensures r.Failure? ==> !r.error.DownloadFailed?
  {
    var listed := ListFiles(pages);
    if listed.Failure? {
      return Failure(ListingFailed(listed.error));
    }
    ghost var all := Flatten(pages[..FinalPage(pages).value + 1]);
    assert ResolveEach(all, NonFolders(all)) == Success(listed.value);
    // No folder survives the listing, so the kernel's folder exception
    // cannot be raised here.
    var downloads := DownloadAll(listed.value).value;
    DestinationsEndInFilename(listed.value, downloads);
    WriteAllSucceedsIff(downloads);
    var written := WriteAll(downloads);
    if written.Failure? {
      return Failure(WriteFailed(written.error));
    }
    return Success(written.value.files);
  }

  /** Every download names its destination as its directory plus its file
      name. */
  lemma DestinationsEndInFilename(files: seq<ListedFile>, ds: seq<Download>)
    requires DownloadAll(files) == Success(ds)
    ensures forall i :: 0 <= i < |ds| ==> ds[i].destination == ds[i].directory + [ds[i].filename]
  {
    forall i | 0 <= i < |ds|
      ensures ds[i].destination == ds[i].directory + [ds[i].filename]
    {
      assert DownloadKernel(files[i]) == Success(ds[i]);
    }
  }

  /** For a file listed under a resolved path of slash-free names, the
      directory created is the path without its last name and the file is
      written there under its dispatched name. */
  lemma DestinationOfResolvedPath(file: ListedFile, segs: seq<string>, d: Download)
    requires file.path == JoinPath(segs)
    requires |segs| >= 1 && AllSlashFree(segs)
    requires DownloadKernel(file) == Success(d)
    ensures d.directory == segs[..|segs| - 1]
    ensures d.destination == segs[..|segs| - 1] + [d.filename]
  {
    PartsOfResolvedPath(file, segs);
    DirectoryOfParts(file, segs, d);
  }

  /** `SplitJoin` stated for the file's stored path. It is kept as its own
      lemma so that `DestinationOfResolvedPath` sees only the parts of the
      path and not the join: inlined, that proof obligation grows about
      fifty-fold. */
  lemma PartsOfResolvedPath(file: ListedFile, segs: seq<string>)
    requires file.path == JoinPath(segs)
    requires |segs| >= 1 && AllSlashFree(segs)
    ensures SplitPath(file.path) == segs
  {
    SplitJoin(segs);
  }

  /** The directory `DownloadKernel` creates is every part of the path but
      the last; kept apart from `DestinationOfResolvedPath` for the same
      reason as `PartsOfResolvedPath`. */
  lemma DirectoryOfParts(file: ListedFile, parts: seq<string>, d: Download)
    requires SplitPath(file.path) == parts
    requires DownloadKernel(file) == Success(d)
    ensures d.directory == parts[..|parts| - 1]
  {
    assert d.directory + [parts[|parts| - 1]] == parts;
  }
}

=== FILE: resolver.dfy ===
/** Path resolution: the nested `recurse_to_the_root` of `list_files`
    (main.py:55-61), which follows an item's first parent up to a root and
    joins the names it meets with "/".

    Two definitions live here. `RecurseToRoot` is the source's recursion as
    written, with `fuel` standing for the number of further
    `recurse_to_the_root` calls the Python stack still allows; it has no
    cycle guard. `Resolve` is the terminating resolver the model
    uses: it carries the set of ids already visited on the current chain and
    reports a cycle instead of recursing again. The lemmas show that the two
    agree, on paths and on errors, whenever the stack allows one call more
    than the steps `Resolve` takes, that the source otherwise runs out of
    stack, and that `Resolve` reports a cycle exactly when the source's
    recursion can never end. */
module Resolver {
  import opened Results
  import opened Drive
  import opened Catalog
  import opened Paths

  datatype ResolveError =
    | MissingItem(id: string)      // no item has this id: `"parents" in None` raises
    | NoParentListed(id: string)   // `parents` is an empty list: `parents[0]` raises
    | ParentCycle(id: string)      // the chain came back to an id it had already visited
    | RecursionLimit               // the Python stack ran out

  predicate IsCycle<T>(r: Result<T, ResolveError>) {
    r.Failure? && r.error.ParentCycle?
  }

  /** The resolved path as the string stored in `file["path"]`. */
  function AsString(r: Result<seq<string>, ResolveError>): Result<string, ResolveError> {
    match r
    case Success(p) => Success(JoinPath(p))
    case Failure(e) => Failure(e)
  }

  /** Removing one more catalog id from the unvisited ones shrinks them by one. */
  lemma ShrinkVisited(items: seq<Item>, id: string, visited: set<string>)
    requires id in Ids(items) && id !in visited
    ensures |Ids(items) - (visited + {id})| + 1 == |Ids(items) - visited|
  {
    assert Ids(items) - visited == (Ids(items) - (visited + {id})) + {id};
  }

  /** The terminating resolver: the segments of the path, root first. */
  function Resolve(items: seq<Item>, id: string, visited: set<string>): (r: Result<seq<string>, ResolveError>)
    ensures r.Success? ==> 1 <= |r.value| <= |Ids(items) - visited|
    ensures r.Success? ==> Lookup(items, id).Some? && r.value[|r.value| - 1] == Lookup(items, id).value.name
    decreases Ids(items) - visited
  {
    if id in visited then Failure(ParentCycle(id))
    else match Lookup(items, id)
      case None => Failure(MissingItem(id))
      case Some(item) =>
        match item.parents
        case None =>
          ShrinkVisited(items, id, visited);
          Success([item.name])
        case Some(ps) =>
          if |ps| == 0 then Failure(NoParentListed(id))
          else
            match Resolve(items, ps[0], visited + {id})
            case Failure(e) => Failure(e)
            case Success(p) =>
              ShrinkVisited(items, id, visited);
              Success(p + [item.name])
  }

  /** `recurse_to_the_root` as written: no cycle guard. `fuel` is the number
      of calls the Python stack still allows, each call taking its own frame,
      with the generator expression of its `next(...)` lookup running in one
      more frame on top while it scans; running out is Python's
      `RecursionError`. */
  function RecurseToRoot(items: seq<Item>, id: string, fuel: nat): (r: Result<string, ResolveError>)
    ensures !IsCycle(r)
    ensures r.Success? ==> Lookup(items, id).Some?
    decreases fuel
  {
    if fuel == 0 then Failure(RecursionLimit)
    else match Lookup(items, id)
      case None => Failure(MissingItem(id))
      case Some(item) =>
        match item.parents
        case None => Success(item.name)
        case Some(ps) =>
          if |ps| == 0 then Failure(NoParentListed(id))
          else
            match RecurseToRoot(items, ps[0], fuel - 1)
            case Failure(e) => Failure(e)
            case Success(s) => Success(s + "/" + item.name)
  }

  /** The id the recursion moves to from `id`, if it moves at all. */
  function Parent(items: seq<Item>, id: string): Option<string> {
    match Lookup(items, id)
    case None => None
    case Some(item) =>
      match item.parents
      case None => None
      case Some(ps) => if |ps| == 0 then None else Some(ps[0])
  }

  /** The `n`-th ancestor along first parents; `None` once the chain stops. */
  ghost function Ancestor(items: seq<Item>, id: string, n: nat): Option<string>
    decreases n
  {
    if n == 0 then Some(id)
    else match Parent(items, id)
      case None => None
      case Some(p) => Ancestor(items, p, n - 1)
  }

  /** The chain position holds an item that has no `parents` key. */
  ghost predicate IsRootAt(items: seq<Item>, a: Option<string>) {
    a.Some? && Lookup(items, a.value).Some? && Lookup(items, a.value).value.parents.None?
  }

  /** The name of the item at a chain position, if there is one. */
  ghost function NameOf(items: seq<Item>, a: Option<string>): Option<string> {
    if a.Some? && Lookup(items, a.value).Some? then Some(Lookup(items, a.value).value.name) else None
  }

  /** Segment `|p|-1-i` of `p` is the name of the `i`-th ancestor of `id`. */
  ghost predicate NamesAlongChain(items: seq<Item>, id: string, p: seq<string>) {
    forall i :: 0 <= i < |p| ==> NameOf(items, Ancestor(items, id, i)) == Some(p[|p| - 1 - i])
  }

  /** No item is its own proper ancestor. */
  ghost predicate Acyclic(items: seq<Item>) {
    forall x: string, n: nat :: 0 < n ==> Ancestor(items, x, n) != Some(x)
  }

  /** Every listed `parents` is non-empty and its first id is in the catalog. */
  predicate NoDanglingParents(items: seq<Item>) {
    forall i :: 0 <= i < |items| && items[i].parents.Some? ==>
      |items[i].parents.value| > 0 && items[i].parents.value[0] in Ids(items)
  }

  // ---------------------------------------------------------------------
  // Facts about ancestor chains

  lemma {:induction false} AncestorAdd(items: seq<Item>, x: string, a: nat, b: nat)
    requires Ancestor(items, x, a).Some?
    ensures Ancestor(items, x, a + b) == Ancestor(items, Ancestor(items, x, a).value, b)
    decreases a
  {
    if a > 0 {
      var p := Parent(items, x).value;
      AncestorAdd(items, p, a - 1, b);
    }
  }

  lemma {:induction false} AncestorPrefix(items: seq<Item>, x: string, m: nat, n: nat)
    requires m <= n && Ancestor(items, x, n).Some?
    ensures Ancestor(items, x, m).Some?
    decreases m
  {
    if m > 0 {
      AncestorPrefix(items, Parent(items, x).value, m - 1, n - 1);
    }
  }

  /** A chain that returns to one of its positions goes on for ever. */
  lemma {:induction false} LoopIsEndless(items: seq<Item>, x: string, j: nat, k: nat, n: nat)
    requires j < k
    requires Ancestor(items, x, j).Some? && Ancestor(items, x, j) == Ancestor(items, x, k)
    ensures Ancestor(items, x, n).Some?
    decreases n
  {
    if n <= k {
      AncestorPrefix(items, x, n, k);
    } else {
      AncestorAdd(items, x, k, n - k);
      AncestorAdd(items, x, j, n - k);
      LoopIsEndless(items, x, j, k, j + (n - k));
    }
  }

  /** While the chain is still defined `n` steps up, `n` calls are not enough. */
  lemma {:induction false} ChainExhaustsFuel(items: seq<Item>, x: string, n: nat)
    requires Ancestor(items, x, n).Some?
    ensures RecurseToRoot(items, x, n) == Failure(RecursionLimit)
    decreases n
  {
    if n > 0 {
      ChainExhaustsFuel(items, Parent(items, x).value, n - 1);
    }
  }

  /** The chain stops right after a root. */
  lemma RootEndsChain(items: seq<Item>, x: string, a: nat)
    requires IsRootAt(items, Ancestor(items, x, a))
    ensures Ancestor(items, x, a + 1).None?
  {
    AncestorAdd(items, x, a, 1);
  }

  /** Two roots on the same chain are the same position. */
  lemma RootIsChainEnd(items: seq<Item>, x: string, a: nat, b: nat)
    requires IsRootAt(items, Ancestor(items, x, a))
    requires IsRootAt(items, Ancestor(items, x, b))
    ensures a == b
  {
    var lo, hi := if a < b then a else b, if a < b then b else a;
    RootEndsChain(items, x, lo);
    if lo < hi {
      AncestorPrefix(items, x, lo + 1, hi);
    }
  }

  // ---------------------------------------------------------------------
  // Resolve against the source's recursion

  /** A reported cycle is a real loop of the first-parent chain from `x0`.
      `chain` lists the first `k` positions of that chain and `visited`
      holds only ids from it. */
  lemma {:induction false} CycleMeansLoop(items: seq<Item>, x0: string, chain: seq<string>, visited: set<string>)
    requires forall i :: 0 <= i < |chain| ==> Ancestor(items, x0, i) == Some(chain[i])
    requires forall v :: v in visited ==> v in chain
    requires Ancestor(items, x0, |chain|).Some?
    requires IsCycle(Resolve(items, Ancestor(items, x0, |chain|).value, visited))
    ensures exists j, m :: 0 <= j < m && Ancestor(items, x0, j).Some? && Ancestor(items, x0, j) == Ancestor(items, x0, m)
    decreases Ids(items) - visited
  {
    var k := |chain|;
    var x := Ancestor(items, x0, k).value;
    if x in visited {
      var i :| 0 <= i < k && chain[i] == x;
      assert Ancestor(items, x0, i).Some? && Ancestor(items, x0, i) == Ancestor(items, x0, k);
    } else {
      var item := Lookup(items, x).value;
      var p := item.parents.value[0];
      assert Parent(items, x) == Some(p);
      AncestorAdd(items, x0, k, 1);
      assert Ancestor(items, x0, k + 1) == Some(p);
      CycleMeansLoop(items, x0, chain + [x], visited + {x});
    }
  }

  /** When `Resolve` reports a cycle, the source's recursion fails with
      `RecursionError` however deep the stack is: it never returns a path. */
  lemma CycleMeansSourceDiverges(items: seq<Item>, id: string, fuel: nat)
    requires IsCycle(Resolve(items, id, {}))
    ensures RecurseToRoot(items, id, fuel) == Failure(RecursionLimit)
  {
    CycleMeansLoop(items, id, [], {});
    var j, m :| 0 <= j < m && Ancestor(items, id, j).Some? && Ancestor(items, id, j) == Ancestor(items, id, m);
    LoopIsEndless(items, id, j, m, fuel);
    ChainExhaustsFuel(items, id, fuel);
  }

  /** Whenever `Resolve` does not report a cycle, the source's recursion
      with room for more calls than unvisited ids returns the same path (as a
      string) or fails with the same error. */
  lemma {:induction false} AgreesWithSource(items: seq<Item>, id: string, visited: set<string>, fuel: nat)
    requires fuel > |Ids(items) - visited|
    requires !IsCycle(Resolve(items, id, visited))
    ensures RecurseToRoot(items, id, fuel) == AsString(Resolve(items, id, visited))
    decreases Ids(items) - visited
  {
    match Lookup(items, id)
    case None =>
    case Some(item) =>
      if item.parents.Some? && |item.parents.value| > 0 {
        var p := item.parents.value[0];
        ResolveFrame(items, id, visited, item);
        ShrinkVisited(items, id, visited);
        AgreesWithSource(items, p, visited + {id}, fuel - 1);
        SourceFrame(items, id, item, fuel);
        AgreeStep(RecurseToRoot(items, p, fuel - 1), Resolve(items, p, visited + {id}), item.name);
      }
  }

  /** Extending agreeing results by one name keeps them agreeing. */
  lemma AgreeStep(s: Result<string, ResolveError>, r: Result<seq<string>, ResolveError>, name: string)
    requires s == AsString(r)
    requires r.Success? ==> |r.value| >= 1
    ensures ExtendPath(s, name) == AsString(if r.Success? then Success(r.value + [name]) else r)
  {
    if r.Success? {
      JoinSnoc(r.value, name);
    }
  }

  /** One step of `Resolve` on an unvisited item with parents: its first
      parent's result, extended by the item's name on success. */
  lemma ResolveFrame(items: seq<Item>, id: string, visited: set<string>, item: Item)
    requires id !in visited && Lookup(items, id) == Some(item)
    requires item.parents.Some? && |item.parents.value| > 0
    ensures var r := Resolve(items, item.parents.value[0], visited + {id});
      Resolve(items, id, visited) == if r.Success? then Success(r.value + [item.name]) else r
  {
  }

  /** A successful resolution of an item with parents: the item is listed
      and not yet visited, and its path is its first parent's path followed
      by its own name. */
  lemma ResolveParentStep(items: seq<Item>, id: string, visited: set<string>, p: seq<string>)
    requires Resolve(items, id, visited) == Success(p)
    requires Lookup(items, id).value.parents.Some?
    ensures id !in visited && id in Ids(items)
    ensures |Lookup(items, id).value.parents.value| > 0
    ensures Resolve(items, Lookup(items, id).value.parents.value[0], visited + {id}).Success?
    ensures p == Resolve(items, Lookup(items, id).value.parents.value[0], visited + {id}).value
                 + [Lookup(items, id).value.name]
  {
  }

  /** The source's step from a parent's result to the child's: the parent's
      string, "/", and the child's name; an error passes through. */
  function ExtendPath(r: Result<string, ResolveError>, name: string): Result<string, ResolveError> {
    match r
    case Success(s) => Success(s + "/" + name)
    case Failure(e) => Failure(e)
  }

  /** One call of the source's recursion on an item with parents. */
  lemma SourceFrame(items: seq<Item>, id: string, item: Item, fuel: nat)
    requires fuel > 0 && Lookup(items, id) == Some(item)
    requires item.parents.Some? && |item.parents.value| > 0
    ensures RecurseToRoot(items, id, fuel) == ExtendPath(RecurseToRoot(items, item.parents.value[0], fuel - 1), item.name)
  {
  }

  /** Once the source's recursion returns a path, room for more calls changes
      nothing. */
  lemma {:induction false} SuccessIsStable(items: seq<Item>, id: string, f1: nat, f2: nat)
    requires RecurseToRoot(items, id, f1).Success?
    requires f1 <= f2
    ensures RecurseToRoot(items, id, f2) == RecurseToRoot(items, id, f1)
    decreases f1
  {
    var item := Lookup(items, id).value;
    if item.parents.Some? {
      SourceFrame(items, id, item, f1);
      SourceFrame(items, id, item, f2);
      SuccessIsStable(items, item.parents.value[0], f1 - 1, f2 - 1);
    } else {
      SourceRootFrame(items, id, item, f1);
      SourceRootFrame(items, id, item, f2);
    }
  }

  /** The source's recursion on an item without a `parents` key returns its
      name in one call. */
  lemma SourceRootFrame(items: seq<Item>, id: string, item: Item, fuel: nat)
    requires fuel > 0 && Lookup(items, id) == Some(item)
    requires item.parents.None?
    ensures RecurseToRoot(items, id, fuel) == Success(item.name)
  {
  }

  /** With room for a call per name of a resolved path, the source's recursion
      returns that path joined by "/". */
  lemma DeepEnoughStackAgrees(items: seq<Item>, id: string, visited: set<string>, p: seq<string>, fuel: nat)
    requires Resolve(items, id, visited) == Success(p)
    requires fuel >= |p|
    ensures RecurseToRoot(items, id, fuel) == Success(JoinPath(p))
  {
    ChainDepthSucceeds(items, id, visited, p, fuel);
    var big := fuel + |Ids(items) - visited| + 1;
    AgreesWithSource(items, id, visited, big);
    SuccessIsStable(items, id, fuel, big);
  }

  /** Room for a call per name of a resolved path is enough for the source
      to return some path. */
  lemma ChainDepthSucceeds(items: seq<Item>, id: string, visited: set<string>, p: seq<string>, fuel: nat)
    requires Resolve(items, id, visited) == Success(p)
    requires fuel >= |p|
    ensures RecurseToRoot(items, id, fuel).Success?
  {
    ResolvedChain(items, id, visited, p);
    RootAtPathEndSucceeds(items, id, p, fuel);
  }

  /** `RootReachedSourceSucceeds` counted in names: a root `|p| - 1` steps
      up is reached with room for `|p|` calls. It is a lemma of its own so
      that its caller's facts, stated in `|p|`, match its requires word for
      word; written inline, the step from `|p|` to `|p| - 1` makes the
      caller's proof obligation many times larger. */
  lemma RootAtPathEndSucceeds(items: seq<Item>, id: string, p: seq<string>, fuel: nat)
    requires |p| >= 1
    requires IsRootAt(items, Ancestor(items, id, |p| - 1))
    requires fuel >= |p|
    ensures RecurseToRoot(items, id, fuel).Success?
  {
    RootReachedSourceSucceeds(items, id, |p| - 1, fuel);
  }

  /** With room for fewer calls than names of a resolved path, the source's
      recursion runs out of stack. */
  lemma ShallowStackFails(items: seq<Item>, id: string, visited: set<string>, p: seq<string>, fuel: nat)
    requires Resolve(items, id, visited) == Success(p)
    requires fuel < |p|
    ensures RecurseToRoot(items, id, fuel) == Failure(RecursionLimit)
  {
    ResolvedChain(items, id, visited, p);
    AncestorPrefix(items, id, fuel, |p| - 1);
    ChainExhaustsFuel(items, id, fuel);
  }

  /** For an id that resolves, the source's recursion needs exactly one call
      per name of the path: with at least that many it returns the path
      joined by "/", with fewer it runs out of stack. The number of calls
      needed is the depth of the chain, not the size of the catalog. */
  lemma AgreesAtChainDepth(items: seq<Item>, id: string, visited: set<string>, fuel: nat)
    requires Resolve(items, id, visited).Success?
    ensures RecurseToRoot(items, id, fuel) ==
              if fuel >= |Resolve(items, id, visited).value|
              then Success(JoinPath(Resolve(items, id, visited).value))
              else Failure(RecursionLimit)
  {
    var p := Resolve(items, id, visited).value;
    if fuel >= |p| {
      DeepEnoughStackAgrees(items, id, visited, p, fuel);
    } else {
      ShallowStackFails(items, id, visited, p, fuel);
    }
  }

  /** The top-level call `recurse_to_the_root(file["id"])`: with at least
      room for as many calls as catalog ids, the source returns exactly what
      `Resolve` returns unless `Resolve` reports a cycle. */
  lemma TerminatingSourceAgrees(items: seq<Item>, id: string, fuel: nat)
    requires fuel > |Ids(items)|
    requires !IsCycle(Resolve(items, id, {}))
    ensures RecurseToRoot(items, id, fuel) == AsString(Resolve(items, id, {}))
  {
    assert Ids(items) - {} == Ids(items);
    AgreesWithSource(items, id, {}, fuel);
  }

  // ---------------------------------------------------------------------
  // Agreement at any stack depth, for results and errors alike

  /** The number of first-parent steps `Resolve` takes from `id` before it
      stops, whether at a root, at a failure or at a revisited id. For a
      resolved path it is one less than the number of names. */
  function Depth(items: seq<Item>, id: string, visited: set<string>): (d: nat)
    ensures Resolve(items, id, visited).Success? ==> d == |Resolve(items, id, visited).value| - 1
    decreases Ids(items) - visited
  {
    if id in visited then 0
    else match Lookup(items, id)
      case None => 0
      case Some(item) =>
        if item.parents.Some? && |item.parents.value| > 0
        then 1 + Depth(items, item.parents.value[0], visited + {id})
        else 0
  }

  /** One step of `Depth` on an unvisited item with parents. */
  lemma DepthFrame(items: seq<Item>, id: string, visited: set<string>, item: Item)
    requires id !in visited && Lookup(items, id) == Some(item)
    requires item.parents.Some? && |item.parents.value| > 0
    ensures Depth(items, id, visited) == 1 + Depth(items, item.parents.value[0], visited + {id})
  {
  }

  /** Whenever `Resolve` reports no cycle, the source's recursion returns
      exactly what `Resolve` returns, path or error, as soon as the stack
      allows one call more than the steps `Resolve` takes, and runs out of
      stack otherwise. The size of the catalog plays no part. */
  lemma {:induction false} SourceAgreesAtDepth(items: seq<Item>, id: string, visited: set<string>, fuel: nat)
    requires !IsCycle(Resolve(items, id, visited))
    ensures RecurseToRoot(items, id, fuel) ==
              if fuel > Depth(items, id, visited) then AsString(Resolve(items, id, visited))
              else Failure(RecursionLimit)
    decreases Ids(items) - visited
  {
    if fuel > 0 && HasParent(items, id) {
      var item := Lookup(items, id).value;
      ParentNotCycle(items, id, visited, item);
      SourceAgreesAtDepth(items, item.parents.value[0], visited + {id}, fuel - 1);
      ParentAgreesAtDepth(items, id, visited, item, fuel);
    } else {
      LeafAgreesAtDepth(items, id, visited, fuel);
    }
  }

  /** Unless `Resolve` reports a cycle for an item with parents, it reports
      none for the item's first parent either. */
  lemma ParentNotCycle(items: seq<Item>, id: string, visited: set<string>, item: Item)
    requires !IsCycle(Resolve(items, id, visited)) && Lookup(items, id) == Some(item)
    requires item.parents.Some? && |item.parents.value| > 0
    ensures id !in visited
    ensures !IsCycle(Resolve(items, item.parents.value[0], visited + {id}))
  {
    ResolveFrame(items, id, visited, item);
  }

  /** The item is listed and its `parents` list has a first entry. */
  predicate HasParent(items: seq<Item>, id: string) {
    Lookup(items, id).Some? && Lookup(items, id).value.parents.Some?
    && |Lookup(items, id).value.parents.value| > 0
  }

  /** The cases of `SourceAgreesAtDepth` where neither definition recurses:
      no room for a call, a missing item, a root, or an empty `parents`. */
  lemma LeafAgreesAtDepth(items: seq<Item>, id: string, visited: set<string>, fuel: nat)
    requires !IsCycle(Resolve(items, id, visited))
    requires fuel == 0 || !HasParent(items, id)
    ensures RecurseToRoot(items, id, fuel) ==
              if fuel > Depth(items, id, visited) then AsString(Resolve(items, id, visited))
              else Failure(RecursionLimit)
  {
  }

  /** The step of `SourceAgreesAtDepth` from an item's first parent to the
      item, kept apart so that the induction's own proof obligation stays
      small. */
  lemma ParentAgreesAtDepth(items: seq<Item>, id: string, visited: set<string>, item: Item, fuel: nat)
    requires id !in visited && Lookup(items, id) == Some(item)
    requires item.parents.Some? && |item.parents.value| > 0
    requires fuel > 0
    requires RecurseToRoot(items, item.parents.value[0], fuel - 1) ==
               if fuel - 1 > Depth(items, item.parents.value[0], visited + {id})
               then AsString(Resolve(items, item.parents.value[0], visited + {id}))
               else Failure(RecursionLimit)
    ensures RecurseToRoot(items, id, fuel) ==
              if fuel > Depth(items, id, visited) then AsString(Resolve(items, id, visited))
              else Failure(RecursionLimit)
  {
    var p := item.parents.value[0];
    ResolveFrame(items, id, visited, item);
    DepthFrame(items, id, visited, item);
    SourceFrame(items, id, item, fuel);
    DepthStep(RecurseToRoot(items, p, fuel - 1), Resolve(items, p, visited + {id}), item.name,
              fuel, Depth(items, p, visited + {id}));
  }

  /** `AgreeStep` with the stack bound carried along: one more call on top
      of a parent `d` steps deep makes the child `d + 1` steps deep. */
  lemma DepthStep(s: Result<string, ResolveError>, r: Result<seq<string>, ResolveError>, name: string,
                  fuel: nat, d: nat)
    requires fuel > 0
    requires s == if fuel - 1 > d then AsString(r) else Failure(RecursionLimit)
    requires r.Success? ==> |r.value| >= 1
    ensures ExtendPath(s, name) ==
              if fuel > 1 + d then AsString(if r.Success? then Success(r.value + [name]) else r)
              else Failure(RecursionLimit)
  {
    if fuel - 1 > d {
      AgreeStep(s, r, name);
    }
  }

  /** Whatever the depth of the stack, the source's recursion either returns
      what `Resolve` returns or runs out of stack, unless `Resolve` reports a
      cycle: it never returns a different path or a different error. */
  lemma SourceAgreesOrRunsOut(items: seq<Item>, id: string, visited: set<string>, fuel: nat)
    requires !IsCycle(Resolve(items, id, visited))
    ensures RecurseToRoot(items, id, fuel) == AsString(Resolve(items, id, visited))
         || RecurseToRoot(items, id, fuel) == Failure(RecursionLimit)
  {
    SourceAgreesAtDepth(items, id, visited, fuel);
  }

  /** A failure of `Resolve` other than a cycle happens `Depth` steps up the
      chain: either no item has the id found there, or its `parents` list is
      empty. */
  lemma {:induction false} FailureAtDepth(items: seq<Item>, id: string, visited: set<string>)
    requires Resolve(items, id, visited).Failure? && !IsCycle(Resolve(items, id, visited))
    ensures var x := Ancestor(items, id, Depth(items, id, visited));
            var e := Resolve(items, id, visited).error;
            x.Some? &&
            ((e == MissingItem(x.value) && Lookup(items, x.value).None?) ||
             (e == NoParentListed(x.value) && Lookup(items, x.value).Some?
              && Lookup(items, x.value).value.parents == Some([])))
    decreases Ids(items) - visited
  {
    match Lookup(items, id)
    case None =>
    case Some(item) =>
      if item.parents.Some? && |item.parents.value| > 0 {
        var p := item.parents.value[0];
        ResolveFrame(items, id, visited, item);
        DepthFrame(items, id, visited, item);
        FailureAtDepth(items, p, visited + {id});
        ParentLink(items, id, item);
        AncestorOfChild(items, id, p, Depth(items, p, visited + {id}));
      }
  }

  /** An ancestor `k` steps up that no item carries makes the source fail
      with `MissingItem` naming it, once the stack allows more than `k`
      calls. */
  lemma {:induction false} MissingAncestorAtDepth(items: seq<Item>, id: string, k: nat, x: string, fuel: nat)
    requires Ancestor(items, id, k) == Some(x) && Lookup(items, x).None?
    requires fuel > k
    ensures RecurseToRoot(items, id, fuel) == Failure(MissingItem(x))
    decreases k
  {
    if k > 0 {
      var item := Lookup(items, id).value;
      var pid := Parent(items, id).value;
      ParentLink(items, id, item);
      AncestorOfChild(items, id, pid, k - 1);
      MissingAncestorAtDepth(items, pid, k - 1, x, fuel - 1);
      SourceFrame(items, id, item, fuel);
    }
  }

  /** On an acyclic catalog no cycle is ever reported. */
  lemma AcyclicNeverCycles(items: seq<Item>, id: string)
    requires Acyclic(items)
    ensures !IsCycle(Resolve(items, id, {}))
  {
    if IsCycle(Resolve(items, id, {})) {
      CycleMeansLoop(items, id, [], {});
      var j, m :| 0 <= j < m && Ancestor(items, id, j).Some? && Ancestor(items, id, j) == Ancestor(items, id, m);
      var y := Ancestor(items, id, j).value;
      AncestorAdd(items, id, j, m - j);
      assert false;
    }
  }

  /** Without dangling parents, resolving a catalog id either succeeds or
      reports a cycle. */
  lemma {:induction false} NoDanglingNeverMissing(items: seq<Item>, id: string, visited: set<string>)
    requires NoDanglingParents(items)
    requires id in Ids(items)
    ensures Resolve(items, id, visited).Success? || IsCycle(Resolve(items, id, visited))
    decreases Ids(items) - visited
  {
    if id !in visited {
      var item := Lookup(items, id).value;
      LookupIsFirstMatch(items, id);
      var i :| 0 <= i < |items| && items[i] == item && forall j :: 0 <= j < i ==> items[j].id != id;
      if item.parents.Some? {
        NoDanglingNeverMissing(items, item.parents.value[0], visited + {id});
      }
    }
  }

  /** On a catalog without dangling parents and without cycles every id
      resolves, and the source's recursion returns the same path joined by
      "/" exactly when the stack allows a call for each of its names. */
  lemma WellFormedResolves(items: seq<Item>, id: string, fuel: nat)
    requires NoDanglingParents(items) && Acyclic(items)
    requires id in Ids(items)
    ensures Resolve(items, id, {}).Success?
    ensures RecurseToRoot(items, id, fuel) ==
              if fuel >= |Resolve(items, id, {}).value|
              then Success(JoinPath(Resolve(items, id, {}).value))
              else Failure(RecursionLimit)
  {
    AcyclicNeverCycles(items, id);
    NoDanglingNeverMissing(items, id, {});
    AgreesAtChainDepth(items, id, {}, fuel);
  }

  // ---------------------------------------------------------------------
  // What a resolved path consists of

  /** A resolved path lists the names of the chain root first: segment
      `|p|-1-i` is the name of the `i`-th ancestor, and the last ancestor
      visited is an item without a `parents` key. */
  lemma {:induction false} ResolvedChain(items: seq<Item>, id: string, visited: set<string>, p: seq<string>)
    requires Resolve(items, id, visited) == Success(p)
    ensures NamesAlongChain(items, id, p)
    ensures IsRootAt(items, Ancestor(items, id, |p| - 1))
    decreases Ids(items) - visited, 1
  {
    if Lookup(items, id).value.parents.None? {
      ResolvedRootChain(items, id, visited, p);
    } else {
      ResolvedParentChain(items, id, visited, p);
    }
  }

  /** `ResolvedChain` for an item without a `parents` key. */
  lemma ResolvedRootChain(items: seq<Item>, id: string, visited: set<string>, p: seq<string>)
    requires Resolve(items, id, visited) == Success(p)
    requires Lookup(items, id).value.parents.None?
    ensures NamesAlongChain(items, id, p)
    ensures IsRootAt(items, Ancestor(items, id, |p| - 1))
  {
    var item := Lookup(items, id).value;
    assert NameOf(items, Some(id)) == Some(item.name);
    assert p == [item.name];
    assert Ancestor(items, id, 0) == Some(id);
  }

  /** `ResolvedChain` for an item with a first parent. */
  lemma {:induction false} ResolvedParentChain(items: seq<Item>, id: string, visited: set<string>, p: seq<string>)
    requires Resolve(items, id, visited) == Success(p)
    requires Lookup(items, id).value.parents.Some?
    ensures NamesAlongChain(items, id, p)
    ensures IsRootAt(items, Ancestor(items, id, |p| - 1))
    decreases Ids(items) - visited, 0
  {
    var item := Lookup(items, id).value;
    ResolveParentStep(items, id, visited, p);
    var pid := item.parents.value[0];
    var q := Resolve(items, pid, visited + {id}).value;
    ResolvedChain(items, pid, visited + {id}, q);
    ParentLink(items, id, item);
    NamesStep(items, id, pid, q, item.name, p);
    RootAfterParent(items, id, pid, q, p);
  }

  /** An item with a first parent links to it, and carries its own name. */
  lemma ParentLink(items: seq<Item>, id: string, item: Item)
    requires Lookup(items, id) == Some(item)
    requires item.parents.Some? && |item.parents.value| > 0
    ensures Parent(items, id) == Some(item.parents.value[0])
    ensures NameOf(items, Some(id)) == Some(item.name)
    ensures Ancestor(items, id, 1) == Some(item.parents.value[0])
  {
  }

  /** The names along an item's chain are its parent's, then its own. */
  lemma NamesStep(items: seq<Item>, id: string, pid: string, q: seq<string>, name: string, p: seq<string>)
    requires Parent(items, id) == Some(pid)
    requires NameOf(items, Some(id)) == Some(name)
    requires NamesAlongChain(items, pid, q)
    requires p == q + [name]
    ensures NamesAlongChain(items, id, p)
  {
    forall i | 0 <= i < |p|
      ensures NameOf(items, Ancestor(items, id, i)) == Some(p[|p| - 1 - i])
    {
      NameStepAt(items, id, pid, q, name, p, i);
    }
  }

  /** `NamesStep` at one position of the chain. */
  lemma NameStepAt(items: seq<Item>, id: string, pid: string, q: seq<string>, name: string, p: seq<string>, i: nat)
    requires Parent(items, id) == Some(pid)
    requires NameOf(items, Some(id)) == Some(name)
    requires NamesAlongChain(items, pid, q)
    requires p == q + [name]
    requires i < |p|
    ensures NameOf(items, Ancestor(items, id, i)) == Some(p[|p| - 1 - i])
  {
    if i > 0 {
      AncestorOfChild(items, id, pid, i - 1);
      assert NameOf(items, Ancestor(items, pid, i - 1)) == Some(q[|q| - 1 - (i - 1)]);
    }
  }

  /** Going `n + 1` steps up from an item is going `n` steps up from its
      first parent. */
  lemma AncestorOfChild(items: seq<Item>, id: string, pid: string, n: nat)
    requires Parent(items, id) == Some(pid)
    ensures Ancestor(items, id, n + 1) == Ancestor(items, pid, n)
  {
  }

  /** While the chain reaches a root `k` steps up within the calls allowed,
      the source's recursion returns a path. */
  lemma {:induction false} RootReachedSourceSucceeds(items: seq<Item>, id: string, k: nat, fuel: nat)
    requires IsRootAt(items, Ancestor(items, id, k))
    requires fuel > k
    ensures RecurseToRoot(items, id, fuel).Success?
    decreases k
  {
    if k > 0 {
      RootReachedSourceSucceeds(items, Parent(items, id).value, k - 1, fuel - 1);
    }
  }

  /** Conversely: an item whose first-parent chain reaches a root after `k`
      ancestors resolves to exactly `k + 1` names. */
  lemma RootAtDepthResolves(items: seq<Item>, id: string, k: nat)
    requires IsRootAt(items, Ancestor(items, id, k))
    ensures Resolve(items, id, {}).Success?
    ensures |Resolve(items, id, {}).value| == k + 1
  {
    RootMeansResolves(items, id, k);
    var p := Resolve(items, id, {}).value;
    ResolvedChain(items, id, {}, p);
    RootDepthIsPathLength(items, id, k, p);
  }

  /** A path ending at the chain's root has one name per step to it, plus
      one. */
  lemma RootDepthIsPathLength(items: seq<Item>, id: string, k: nat, p: seq<string>)
    requires IsRootAt(items, Ancestor(items, id, k))
    requires |p| >= 1
    requires IsRootAt(items, Ancestor(items, id, |p| - 1))
    ensures |p| == k + 1
  {
    RootIsChainEnd(items, id, k, |p| - 1);
  }

  /** A chain that reaches a root resolves: the source's recursion with a
      deep enough stack returns a path, and it agrees with `Resolve`. */
  lemma RootMeansResolves(items: seq<Item>, id: string, k: nat)
    requires IsRootAt(items, Ancestor(items, id, k))
    ensures Resolve(items, id, {}).Success?
  {
    var fuel := |Ids(items)| + k + 1;
    RootMeansNoCycle(items, id, k);
    RootReachedSourceSucceeds(items, id, k, fuel);
    TerminatingSourceAgrees(items, id, fuel);
  }

  /** A chain that reaches a root is not reported as a cycle. */
  lemma RootMeansNoCycle(items: seq<Item>, id: string, k: nat)
    requires IsRootAt(items, Ancestor(items, id, k))
    ensures !IsCycle(Resolve(items, id, {}))
  {
    if IsCycle(Resolve(items, id, {})) {
      CycleMeansLoop(items, id, [], {});
      var j, m :| 0 <= j < m && Ancestor(items, id, j).Some? && Ancestor(items, id, j) == Ancestor(items, id, m);
      LoopIsEndless(items, id, j, m, k + 1);
      RootEndsChain(items, id, k);
      assert false;
    }
  }

  /** A root-level item resolves to its own name alone. */
  lemma RootResolvesToName(items: seq<Item>, id: string)
    requires Lookup(items, id).Some? && Lookup(items, id).value.parents.None?
    ensures Resolve(items, id, {}) == Success([Lookup(items, id).value.name])
  {
  }

  /** A first parent that is not in the catalog is a failure naming that
      parent, both for `Resolve` and for the source's recursion: the lookup
      yields nothing and nothing is defaulted. */
  lemma AbsentParentFails(items: seq<Item>, id: string, fuel: nat)
    requires Lookup(items, id).Some?
    requires Parent(items, id).Some? && Parent(items, id).value !in Ids(items)
    requires fuel >= 2
    ensures Resolve(items, id, {}) == Failure(MissingItem(Parent(items, id).value))
    ensures RecurseToRoot(items, id, fuel) == Failure(MissingItem(Parent(items, id).value))
  {
    var pid := Parent(items, id).value;
    assert Lookup(items, pid).None?;
    assert pid != id;
    assert Resolve(items, pid, {id}) == Failure(MissingItem(pid));
    assert RecurseToRoot(items, pid, fuel - 1) == Failure(MissingItem(pid));
  }

  /** Fewer visited ids never turn a resolved path into a different result. */
  lemma {:induction false} SmallerVisitedSameSuccess(items: seq<Item>, id: string, visited: set<string>, fewer: set<string>)
    requires fewer <= visited
    requires Resolve(items, id, visited).Success?
    ensures Resolve(items, id, fewer) == Resolve(items, id, visited)
    decreases Ids(items) - visited
  {
    var item := Lookup(items, id).value;
    if item.parents.Some? {
      SmallerVisitedSameSuccess(items, item.parents.value[0], visited + {id}, fewer + {id});
    }
  }

  /** An item with parents resolves to its first parent's path followed by
      its own name. */
  lemma ParentThenName(items: seq<Item>, id: string)
    requires Resolve(items, id, {}).Success?
    requires Lookup(items, id).value.parents.Some?
    ensures var p := Resolve(items, id, {}).value;
      var ps := Lookup(items, id).value.parents.value;
      && |p| >= 2 && |ps| > 0
      && Resolve(items, ps[0], {}) == Success(p[..|p| - 1])
      && p[|p| - 1] == Lookup(items, id).value.name
  {
    var item := Lookup(items, id).value;
    var pid := item.parents.value[0];
    SmallerVisitedSameSuccess(items, pid, {id}, {});
    var q := Resolve(items, pid, {id}).value;
    assert Resolve(items, id, {}).value[..|q|] == q;
  }

  /** Conversely: an item whose first parent resolves resolves itself, to
      that parent's path followed by its own name. */
  lemma ParentResolvesThenChild(items: seq<Item>, id: string, item: Item, q: seq<string>)
    requires Lookup(items, id) == Some(item)
    requires item.parents.Some? && |item.parents.value| > 0
    requires Resolve(items, item.parents.value[0], {}) == Success(q)
    ensures Resolve(items, id, {}) == Success(q + [item.name])
  {
    ChildReachesRoot(items, id, item, q);
    RootAtDepthResolves(items, id, |q|);
    ParentThenName(items, id);
    var p := Resolve(items, id, {}).value;
    assert p == p[..|p| - 1] + [p[|p| - 1]];
  }

  /** The chain of an item whose first parent resolves to `q` reaches a root
      `|q|` steps up. */
  lemma ChildReachesRoot(items: seq<Item>, id: string, item: Item, q: seq<string>)
    requires Lookup(items, id) == Some(item)
    requires item.parents.Some? && |item.parents.value| > 0
    requires Resolve(items, item.parents.value[0], {}) == Success(q)
    ensures IsRootAt(items, Ancestor(items, id, |q|))
  {
    var pid := item.parents.value[0];
    ResolvedChain(items, pid, {}, q);
    ParentLink(items, id, item);
    RootOneStepFurther(items, id, pid, q);
  }

  /** A root `|q| - 1` steps above an item's first parent is `|q|` steps
      above the item. */
  lemma RootOneStepFurther(items: seq<Item>, id: string, pid: string, q: seq<string>)
    requires Ancestor(items, id, 1) == Some(pid)
    requires |q| >= 1 && IsRootAt(items, Ancestor(items, pid, |q| - 1))
    ensures IsRootAt(items, Ancestor(items, id, |q|))
  {
    AncestorAdd(items, id, 1, |q| - 1);
  }

  /** The same, counted on the item's path `p`, one name longer than its
      first parent's path `q`. */
  lemma RootAfterParent(items: seq<Item>, id: string, pid: string, q: seq<string>, p: seq<string>)
    requires Parent(items, id) == Some(pid)
    requires 1 <= |q| && |p| == |q| + 1
    requires IsRootAt(items, Ancestor(items, pid, |q| - 1))
    ensures IsRootAt(items, Ancestor(items, id, |p| - 1))
  {
    AncestorOfChild(items, id, pid, |q| - 1);
  }

  // ---------------------------------------------------------------------
  // Only the first parent is used

  function TrimParents(item: Item): Item {
    match item.parents
    case Some(ps) => if |ps| > 0 then item.(parents := Some([ps[0]])) else item
    case None => item
  }

  /** The catalog with every `parents` list cut down to its first entry. */
  function FirstParentsOnly(items: seq<Item>): (r: seq<Item>)
    ensures |r| == |items|
    ensures forall i :: 0 <= i < |items| ==> r[i] == TrimParents(items[i])
  {
    seq(|items|, i requires 0 <= i < |items| => TrimParents(items[i]))
  }

  /** Parents after the first never influence a resolved path or error. */
  lemma {:induction false} OnlyFirstParentMatters(items: seq<Item>, id: string, visited: set<string>)
    ensures Resolve(FirstParentsOnly(items), id, visited) == Resolve(items, id, visited)
    decreases Ids(items) - visited
  {
    var t := FirstParentsOnly(items);
    SameIdsSamePosition(t, items, id);
    assert Lookup(t, id).Some? <==> Lookup(items, id).Some?;
    if id !in visited && Lookup(items, id).Some? {
      var item := Lookup(items, id).value;
      assert Lookup(t, id) == Some(TrimParents(item));
      if item.parents.Some? && |item.parents.value| > 0 {
        OnlyFirstParentMatters(items, item.parents.value[0], visited + {id});
      }
    }
  }
}

=== FILE: results.dfy ===
/** Option and Result, the failure-carrying values used throughout the model.
    A Python exception raised by the source becomes a `Failure` here. */
module Results {

  datatype Option<+T> = None | Some(value: T)

  datatype Result<+T, +E> = Success(value: T) | Failure(error: E)
}

=== FILE: scenarios.dfy ===
/** Concrete catalogs: the Parent/Child case of test/test_quickstart.py, a
    document under a folder, a folder whose parent is itself, a file whose
    parent is not listed, two files written to the same place, and a file
    and a folder of the same name. */
module Scenarios {
  import opened Results
  import opened Drive
  import opened Catalog
  import opened Paths
  import opened Resolver
  import opened Listing
  import opened Export
  import opened Pipeline
  import opened LocalTree

  const ChildPdf: Item := Item("1", "Child", "application/pdf", Some(["0"]))
  const ParentFolder: Item := Item("0", "Parent", FolderMime, None)

  /** The listing of test_recurse_to_the_root: the folder is dropped and the
      file's path is "Parent/Child". */
  lemma ParentChildListing()
    ensures NonFolders([ChildPdf, ParentFolder]) == [ChildPdf]
    ensures Resolve([ChildPdf, ParentFolder], "1", {}) == Success(["Parent", "Child"])
    ensures ResolveEach([ChildPdf, ParentFolder], [ChildPdf]) == Success([ListedFile(ChildPdf, "Parent/Child")])
  {
    var items := [ChildPdf, ParentFolder];
    assert FindFirst(items[1..], "0") == Some(0);
    assert Lookup(items, "0") == Some(ParentFolder);
    assert Lookup(items, "1") == Some(ChildPdf);
    assert Resolve(items, "0", {"1"}) == Success(["Parent"]);
    assert Resolve(items, "1", {}) == Success(["Parent"] + ["Child"]);
    assert ["Parent"] + ["Child"] == ["Parent", "Child"];
    assert JoinPath(["Parent", "Child"]) == "Parent/Child";
    var r := ResolveEach(items, [ChildPdf]);
    assert r.Success? && |r.value| == 1;
    assert r.value[0] == ListedFile(ChildPdf, "Parent/Child");
    assert r.value == [r.value[0]];
  }

  /** A document under a folder is exported to Word format and written as
      Parent/Child.docx after creating the directory Parent. */
  lemma DocumentUnderFolder()
    ensures var file := ListedFile(Item("1", "Child", DocumentMime, Some(["root"])), JoinPath(["Parent", "Child"]));
      DownloadKernel(file) == Success(Download(ExportMedia("1", DocxMime), "Child.docx", ["Parent"], ["Parent", "Child.docx"]))
  {
    var segs := ["Parent", "Child"];
    var file := ListedFile(Item("1", "Child", DocumentMime, Some(["root"])), JoinPath(segs));
    assert AllSlashFree(segs) by {
      assert SlashFree("Parent") && SlashFree("Child");
    }
    var d := DownloadKernel(file).value;
    DestinationOfResolvedPath(file, segs, d);
    assert d.request == ExportMedia("1", DocxMime);
    assert d.filename == "Child" + ".docx" == "Child.docx";
    assert d.directory == ["Parent"];
    assert d.destination == ["Parent", "Child.docx"];
    assert d == Download(ExportMedia("1", DocxMime), "Child.docx", ["Parent"], ["Parent", "Child.docx"]);
  }

  /** A root-level file of a kind that is not exported is fetched raw under
      its own name and written in the current directory. */
  lemma RootLevelFile(id: string, name: string, mimeType: string)
    requires SlashFree(name)
    requires mimeType !in {FolderMime, DocumentMime, SpreadsheetMime, PresentationMime}
    ensures DownloadKernel(ListedFile(Item(id, name, mimeType, None), name))
              == Success(Download(GetMedia(id), name, [], [name]))
  {
    var file := ListedFile(Item(id, name, mimeType, None), name);
    var d := DownloadKernel(file).value;
    SplitSlashFree(name);
    assert d.directory + [name] == [name];
    assert d.directory == [];
  }

  /** A folder reaching the kernel ends the run; the message is the one
      raised for a folder whose children listing is empty. */
  lemma FolderRejected()
    ensures DownloadKernel(ListedFile(ParentFolder, "Parent")) == Failure(FolderFound("Folder found among files."))
  {
  }

  /** An item that is its own parent: `Resolve` reports the cycle, and the
      source's recursion runs out of stack whatever its depth. */
  lemma SelfParentIsCycle(fuel: nat)
    ensures Resolve([Item("a", "A", "text/plain", Some(["a"]))], "a", {}) == Failure(ParentCycle("a"))
    ensures RecurseToRoot([Item("a", "A", "text/plain", Some(["a"]))], "a", fuel) == Failure(RecursionLimit)
  {
    var items := [Item("a", "A", "text/plain", Some(["a"]))];
    assert Lookup(items, "a") == Some(items[0]);
    assert Resolve(items, "a", {"a"}) == Failure(ParentCycle("a"));
    CycleMeansSourceDiverges(items, "a", fuel);
  }

  /** The test fixture's file names a parent "0" that is not listed: the
      lookup finds nothing and resolution fails. */
  lemma DanglingParentFails()
    ensures Resolve([Item("1", "File1", "application/pdf", Some(["0"]))], "1", {}) == Failure(MissingItem("0"))
  {
    var items := [Item("1", "File1", "application/pdf", Some(["0"]))];
    assert Lookup(items, "1") == Some(items[0]);
    assert Lookup(items, "0") == None;
  }

  /** Two files with the same resolved destination: the second write wins. */
  lemma SecondWriteWins()
    ensures var a := Download(GetMedia("x"), "B", ["A"], ["A", "B"]);
      var b := Download(GetMedia("y"), "B", ["A"], ["A", "B"]);
      Mirror([a, b]) == map[["A", "B"] := "y"]
  {
    var a := Download(GetMedia("x"), "B", ["A"], ["A", "B"]);
    var b := Download(GetMedia("y"), "B", ["A"], ["A", "B"]);
    LastWriteWins([a, b], 1);
    assert Mirror([a, b]).Keys == {["A", "B"]};
  }

  /** A file "B" and a folder "B" holding "C", both under "A": "A/B" is
      wanted as a file and as a directory. Writing the file first makes the
      directory creation for "C" fail; writing "C" first makes opening the
      file fail. */
  lemma FileAndFolderSameName()
    ensures var b := Download(GetMedia("b"), "B", ["A"], ["A", "B"]);
      var c := Download(GetMedia("c"), "C", ["A", "B"], ["A", "B", "C"]);
      && !NoCollision([b, c]) && !NoCollision([c, b])
      && WriteAll([b, c]) == Failure(MakeDirsFailed(["A", "B"]))
      && WriteAll([c, b]) == Failure(OpenFailed(["A", "B"]))
  {
    var b := Download(GetMedia("b"), "B", ["A"], ["A", "B"]);
    var c := Download(GetMedia("c"), "C", ["A", "B"], ["A", "B", "C"]);
    assert OnDirPath(b.destination, c.directory);
    assert [b, c][..1] == [b] && [c, b][..1] == [c];
    assert [b][..0] == [] && [c][..0] == [];
    var empty := Tree({}, map[]);
    assert WriteAll([]) == Success(empty);
    assert WriteAll([b]) == WriteOne(empty, b);
    assert b.destination !in DirChain(b.directory);
    assert WriteAll([c]) == WriteOne(empty, c);
    assert c.destination !in DirChain(c.directory);
    var t1 := WriteAll([b]).value;
    assert b.destination in t1.files;
    assert WriteAll([b, c]) == WriteOne(t1, c);
    var t2 := WriteAll([c]).value;
    assert b.destination in DirChain(c.directory);
    assert WriteAll([c, b]) == WriteOne(t2, b);
    assert !(exists q :: q in t2.files && OnDirPath(q, b.directory)) by {
      assert t2.files == map[c.destination := "c"];
    }
  }
}
